=== FILE: README.md ===
# CareConnect caregiver matching — a Dafny model

This project models the core of the CareConnect caregiver-matching site (the
`bukgazua` repository, written in TypeScript with Next.js and zod):

- **Recommendation flow** (`Recommendation`). The roster is filtered by three eligibility rules: the gender rule for female patients, no unavailable day in the requested interval, and status '가능'. The eligible caregivers are shuffled with Fisher–Yates and the first three kept. Each is projected into a card with fallbacks, an age and a random suitability score from 50 to 85, and the cards are sorted by score, highest first. A roster that cannot be fetched gives an empty list.
- **Request form** (`RecommendationForm`). The zod schema with its time-order refinement, the start and end hour menus, the `requestedTime` text, the request built from the form, and what the page shows after submitting.
- **Caregiver card** (`CaregiverCard`). The avatar initial, the 50-character experience summary, and the inquiry guard and payload.
- **Name masking** (`MaskName`). `maskName`, which keeps the first and last character of the first word and any suffix such as " 님".
- **Admin console**:
  - `AdminRoster`: the list ordered by id and the name search; the add, edit and delete updates; row selection.
  - `DatesEditor`: the unavailable-dates editor as a state machine of clicks, shift-click ranges, clearing, and the server's answer.
  - `AdminActions`: the add-caregiver and set-unavailability server actions, including `z.coerce.number()` on the age and the comma-separated list parsing.
- **Caregiver application** (`SupportApplication`). The application schema and the action's answer.
- **Route guard** (`RouteGuard`). The middleware and its path matcher.
- **Admin e-mail settings** (`Settings`). `getAdminEmails` over five numbered settings.

Shared pieces:

- `Text`: JavaScript's `trim`, `split` and `join`, `startsWith`, ASCII `toLowerCase`, the `<` comparison on strings, and decimal digits.
- `Sorting`: a descending insertion sort that stands for the stable `Array.prototype.sort`.
- `Calendar`: date-fns's `differenceInYears` and `eachDayOfInterval`.
- `Validation`: zod's issue list and `flatten().fieldErrors`, and the required-text and gender-enum checks the schemas share.
- `Sequences`: order-preserving selection (a subsequence).
- `CaregiverTypes`: the record types.

Modelling conventions:

- `Math.random()` is an oracle: a sequence of reals in [0, 1) supplied by the caller, one stream for the shuffle and one for the scores.
- "Today" is a parameter.
- Calendar days are integer day numbers. Birth dates are (year, month, day) triples.
- `formData.get` gives `Option<string>`, with `None` for `null`.
- The database, the e-mail service, the URL validator and the fetch calls are parameters: a predicate, or an outcome passed in.
- Where a zod message is the library's default rather than the source's own text, the model records the kind of failure (`WrongType`, `NotInEnum`) instead of the wording.

Where the code and its description differ, the model follows the code:

- The certificate list of a recommendation is `split(',').map(trim)` with no filter, so an empty piece stays as an empty string (`Recommendation.CertificationsKeepEmpty`). Only the admin action drops empty pieces.
- The time-order refinement of the request form runs only when no field has failed with an aborting issue. So a missing patient gender hides an end-before-start error (`RecommendationForm.GenderFailureHidesTimeError`).

## Verifying

Pass all files to Dafny 4.11 together; no file includes another:

    dafny verify --resource-limit 2000000 --verification-time-limit 0 --warn-contradictory-assumptions *.dfy

Each proof is kept within that resource limit. A plain `dafny verify *.dfy`, with its 30-second limit per proof, accepts the same files.

## Model

| member | source | states |
|---|---|---|
| Recommendation.PickIndex | src/ai/flows/caregiver-recommendation.ts:57 | `Math.floor(Math.random() * (i + 1))` is an index no greater than `i` |
| Recommendation.Score | src/ai/flows/caregiver-recommendation.ts:119 | `50 + Math.floor(Math.random() * 36)` lies between 50 and 85 |
| Recommendation.Swap | src/ai/flows/caregiver-recommendation.ts:58 | exchanging two entries keeps the length and the multiset of elements |
| Recommendation.ShuffleFrom | src/ai/flows/caregiver-recommendation.ts:56-59 | the Fisher–Yates loop from index `i` down produces a permutation of its input |
| Recommendation.Shuffle | src/ai/flows/caregiver-recommendation.ts:55-61 | `shuffleArray` returns a permutation of the array, for every sequence of random draws |
| Recommendation.SomeInIffShared | src/ai/flows/caregiver-recommendation.ts:88-90 | the `some`/`includes` scan finds a match exactly when a requested day is also an unavailable date |
| Recommendation.FilterEligible | src/ai/flows/caregiver-recommendation.ts:76-103 | the filter keeps exactly the caregivers passing all three rules, each as many times as in the roster |
| Recommendation.Certifications | src/ai/flows/caregiver-recommendation.ts:116 | no text gives no certificates; otherwise one trimmed, comma-free piece per comma-separated piece |
| Recommendation.CertificationsOfJoin | src/ai/flows/caregiver-recommendation.ts:116 | the certificates of comma-joined pieces are those pieces trimmed, so the split inverts the join |
| Recommendation.CertificationsKeepEmpty | src/ai/flows/caregiver-recommendation.ts:116 | "A,,B" gives ["A", "", "B"]: empty pieces are not dropped |
| Recommendation.Project | src/ai/flows/caregiver-recommendation.ts:114-131 | a card takes the fallbacks '이름없음' and '경력 정보 없음', the caregiver's age, certificates, phone and photo, and the given score |
| Recommendation.ProjectionFallbacks | src/ai/flows/caregiver-recommendation.ts:122-125 | the name and experience fallbacks apply exactly to empty values; the gender is never '미지정' and parses back to the caregiver's gender |
| Recommendation.ProjectedAge | src/ai/flows/caregiver-recommendation.ts:115 | no birth date gives age 0; on the n-th birthday the age is n |
| Recommendation.ProjectsOneOfSubset | src/ai/flows/caregiver-recommendation.ts:114 | a card projected from a caregiver of a sub-list is projected from one of the whole list |
| Recommendation.Scored | src/ai/flows/caregiver-recommendation.ts:114-131 | one card per selected caregiver, in order, each its projection with a score from 50 to 85 |
| Recommendation.Selected | src/ai/flows/caregiver-recommendation.ts:111-114 | `slice(0, 3)` of the shuffled eligible caregivers: min(3, number eligible) of them, a sub-multiset of the eligible ones |
| Recommendation.Ranked | src/ai/flows/caregiver-recommendation.ts:114-134 | the cards are the scored cards of the selected caregivers rearranged (same multiset), sorted by score, highest first, with scores from 50 to 85 |
| Recommendation.SortedScoredFacts | src/ai/flows/caregiver-recommendation.ts:134 | sorting the cards keeps each card's score bound and its origin |
| Recommendation.Recommend | src/ai/flows/caregiver-recommendation.ts:69-143 | a failed fetch gives no cards; otherwise min(3, number eligible) cards sorted by score, each projected from an eligible caregiver, and together the scored cards of a pick that takes no caregiver more often than it is eligible |
| Recommendation.FemalePatientOnlyFemale | src/ai/flows/caregiver-recommendation.ts:78-80 | every card recommended to a female patient is a female caregiver |
| Recommendation.GenderRuleOnlyForFemalePatients | src/ai/flows/caregiver-recommendation.ts:78 | for a male or unstated patient gender the gender rule excludes no one |
| Recommendation.DatesOkIffRangeFree | src/ai/flows/caregiver-recommendation.ts:83-94 | the date rule passes exactly when no unavailable date lies between `from` and `to`, or `from` alone when `to` is absent, in either order |
| Recommendation.NoFromNoDateCheck | src/ai/flows/caregiver-recommendation.ts:83 | without a `from` date the date rule excludes no one |
| Recommendation.ExcludedCaregivers | src/ai/flows/caregiver-recommendation.ts:91-99 | a caregiver unavailable on a requested day, or whose status is not '가능', is never eligible |
| Calendar.FullYearsElapsed | src/ai/flows/caregiver-recommendation.ts:115 | `differenceInYears` counts the full years elapsed: one more year would pass the later date |
| Calendar.AnniversaryDifference | src/ai/flows/caregiver-recommendation.ts:115 | n years after a date the difference is exactly n |
| Calendar.DifferenceAntisymmetric | src/ai/flows/caregiver-recommendation.ts:115 | swapping the two dates negates the difference |
| Calendar.EachDayOfInterval | src/ai/flows/caregiver-recommendation.ts:86 | `eachDayOfInterval` gives every day between the two ends, in either order, starting at `start` and ending at `end` |
| Sorting.SortDesc | src/ai/flows/caregiver-recommendation.ts:134 | the sort is a permutation ordered by descending key |
| Sorting.InsertDesc | src/ai/flows/caregiver-recommendation.ts:134 | inserting into a descending list keeps it descending and adds exactly that element |
| Sorting.SortDescOfSorted | src/app/admin/page.tsx:40 | a list already in descending order is left as it is |
| Text.Trim | src/lib/utils.ts:14 | `trim` returns a slice of the text with only white space around it removed, whose ends are not white space, and leaves text with clean ends unchanged |
| Text.TrimIdempotent | src/lib/utils.ts:14 | trimming twice is trimming once |
| Text.Split | src/lib/utils.ts:14 | `split` gives at least one piece, no piece contains the separator, and joining the pieces gives the text back |
| Text.SplitJoin | src/lib/utils.ts:14-16 | splitting the join of separator-free pieces gives the pieces back |
| Text.ToLower | src/app/admin/page.tsx:59 | lower-casing maps each character and keeps the length |
| Text.LexLessIrreflexive | src/components/caregiver-recommendation-form.tsx:43 | no time text is less than itself under `<` |
| Text.LexLessTransitive | src/components/caregiver-recommendation-form.tsx:43 | the string `<` is transitive |
| Text.LexLessTotal | src/components/caregiver-recommendation-form.tsx:43 | of two different strings, one is less than the other |
| Text.DigitsValueOfDecimalText | src/lib/settings.ts:15 | the decimal text of a number reads back as that number |
| MaskName.FirstToken | src/lib/utils.ts:14-15 | the first word is a space-free prefix of the trimmed name ending at a space or at the end |
| MaskName.MaskToken | src/lib/utils.ts:22-28 | a word of two characters becomes first + '*'; a longer word keeps its first and last character with '*' between |
| MaskName.MaskName | src/lib/utils.ts:8-29 | an empty name stays empty; a first word of at most one character returns the name unchanged; otherwise the masked first word followed by the rest of the trimmed name |
| MaskName.MaskKeepsTrimmedLength | src/lib/utils.ts:14-28 | a masked name is as long as the trimmed name |
| MaskName.MaskNameExample | src/lib/utils.ts:8-29 | "김서아 님" becomes "김*아 님" |
| DatesEditor.Toggle | src/components/admin/unavailable-dates-manager.tsx:43-52 | a plain click flips that day's membership and no other day's |
| DatesEditor.AddRange | src/components/admin/unavailable-dates-manager.tsx:32-42 | a shift-click adds every day between the anchor and the clicked day, in either order |
| DatesEditor.Click | src/components/admin/unavailable-dates-manager.tsx:26-61 | a click moves the anchor to the clicked day and either adds the range or toggles the day |
| DatesEditor.Sent | src/components/admin/unavailable-dates-manager.tsx:57-65 | exactly day clicks and clears send, and they send the new local set |
| DatesEditor.PlainClickTogglesOneDay | src/components/admin/unavailable-dates-manager.tsx:43-54 | a plain click toggles that one day and anchors on it |
| DatesEditor.PlainClickTwiceRestores | src/components/admin/unavailable-dates-manager.tsx:43-52 | two plain clicks on the same day restore the selection |
| DatesEditor.ShiftClickAddsRange | src/components/admin/unavailable-dates-manager.tsx:32-42 | with an anchor, a shift-click adds the whole range and keeps every earlier day |
| DatesEditor.ShiftClickWithoutAnchor | src/components/admin/unavailable-dates-manager.tsx:32 | without an anchor a shift-click acts as a plain click |
| DatesEditor.ClearResets | src/components/admin/unavailable-dates-manager.tsx:63-67 | clearing empties the set, forgets the anchor and sends the empty list |
| DatesEditor.FailedUpdateReverts | src/components/admin/unavailable-dates-manager.tsx:89-92 | a failed update restores the caregiver's original dates and keeps the anchor |
| AdminRoster.Loaded | src/app/admin/page.tsx:40 | the loaded list is a permutation of the fetched one, ordered by id, highest first |
| AdminRoster.Filtered | src/app/admin/page.tsx:56-61 | an empty search shows the whole list; otherwise exactly the caregivers whose lower-cased name contains the term, each as often as it occurs in the list |
| AdminRoster.FilterMatchingKeepsOrder | src/app/admin/page.tsx:58-60 | the search keeps the list's order |
| AdminRoster.FilterMatchingCounts | src/app/admin/page.tsx:58-60 | the search keeps each matching caregiver as often as it occurs and drops every other one |
| AdminRoster.Added | src/app/admin/page.tsx:63-66 | adding puts exactly the new caregiver into the list and keeps it ordered by id |
| AdminRoster.Edited | src/app/admin/page.tsx:68-71 | editing replaces the entries with the edited id and leaves every other entry in place |
| AdminRoster.EditKeepsIds | src/app/admin/page.tsx:68-71 | editing keeps every position's id, and applying the same edit twice is applying it once |
| AdminRoster.Deleted | src/app/admin/page.tsx:73-75 | deleting keeps, in order, exactly the caregivers whose id was not deleted |
| AdminRoster.DeletedCounts | src/app/admin/page.tsx:73-75 | deleting keeps each caregiver whose id was not deleted as often as it occurs and drops every deleted one |
| AdminRoster.DeleteTwice | src/app/admin/page.tsx:73-75 | two deletions in a row equal one deletion of both id lists |
| AdminRoster.SelectAll | src/app/admin/page.tsx:77-79 | checking all selects the ids of the filtered list in order; unchecking selects nothing |
| AdminRoster.SelectRow | src/app/admin/page.tsx:81-83 | checking a row appends its id; unchecking removes every copy of it and nothing else |
| AdminRoster.CheckThenUncheck | src/app/admin/page.tsx:81-83 | checking then unchecking a row is removing its id from the earlier selection |
| AdminRoster.WithoutAppend | src/app/admin/page.tsx:82 | removing an id after appending it is removing it from the original selection |
| RouteGuard.Middleware | src/middleware.ts:3-19 | a path starting with "/admin" without a session goes to the login page; a path starting with "/login" with a session goes to the admin page; nothing else redirects |
| RouteGuard.Guard | src/middleware.ts:3-24 | behind the matcher, only "/admin" and "/admin/…" without a session go to login, and only "/login" with a session goes to the admin page |
| RouteGuard.CookieValueIrrelevant | src/middleware.ts:4-16 | only the presence of the session cookie matters, and a session never redirects to login |
| RouteGuard.AdminNeedsSession | src/middleware.ts:8-10 | every admin page redirects to login without a session |
| RouteGuard.PrefixOnlyGuardedThroughMatcher | src/middleware.ts:8-24 | "/administrator" and "/login/help" match the prefix tests, but the matcher leaves them alone |
| RouteGuard.RedirectTargetsSettle | src/middleware.ts:8-16 | for every path and session, the target of a redirect passes through with the same session, so a redirect happens at most once |
| Validation.MessagesMembers | src/app/support/actions.ts:36 | the messages of a field are exactly those of its issues, and none exactly when the field is not flagged |
| Validation.FieldErrors | src/app/support/actions.ts:36 | `flatten().fieldErrors` has a key exactly for each flagged field, holding its non-empty message list |
| Validation.MinLength | src/app/support/actions.ts:8 | `.min(n, message)` reports one issue with that message exactly when the text is shorter than n |
| Validation.RequiredText | src/app/support/actions.ts:8 | a required text passes exactly when present and non-empty; `null` is the wrong type, empty gets the field's message |
| Validation.GenderIssues | src/components/caregiver-recommendation-form.tsx:31 | the gender passes exactly when it is '남성' or '여성'; a missing value reports the given message (the `required_error` text for `undefined`, the wrong type for `null` in src/app/support/actions.ts:14 and workspace/src/app/admin/actions.ts:12), other text is not in the enum |
| Validation.OrElse | src/components/caregiver-recommendation-form.tsx:111 | `v \|\| fallback` keeps a non-empty value and otherwise gives the fallback |
| Validation.MessagesOfAppend | src/app/support/actions.ts:36 | the messages of concatenated issue lists are the concatenated messages |
| Validation.FlaggedOfAppend | src/app/support/actions.ts:36 | a field is flagged in concatenated lists exactly when it is flagged in one of them |
| RecommendationForm.FieldIssues | src/components/caregiver-recommendation-form.tsx:29-31 | the field checks pass exactly for a name of at least 2, a phone of at least 10 and a valid gender, flagging name and phone exactly when too short |
| RecommendationForm.FormIssues | src/components/caregiver-recommendation-form.tsx:28-49 | the form is valid exactly when the fields pass and the times are ordered; the end time shows the refinement's message exactly when the gender is valid and the times are out of order |
| RecommendationForm.GenderFailureHidesTimeError | src/components/caregiver-recommendation-form.tsx:31-49 | a missing gender reports '성별은 필수 항목입니다.' and suppresses the time-order error |
| RecommendationForm.HourLabelDigits | src/components/caregiver-recommendation-form.tsx:52-53 | the label of hour h below 100 is its two digits followed by ":00" |
| RecommendationForm.HourLabelOrder | src/components/caregiver-recommendation-form.tsx:43 | for hours below 100, comparing labels with `<` agrees with comparing the hours |
| RecommendationForm.StartTimeOptions | src/components/caregiver-recommendation-form.tsx:51-54 | the start menu lists hours 0 to 23 |
| RecommendationForm.EndTimeOptions | src/components/caregiver-recommendation-form.tsx:56-61 | the end menu lists hours 1 to 24 |
| RecommendationForm.OptionsIncrease | src/components/caregiver-recommendation-form.tsx:51-61 | both menus are strictly increasing under `<` |
| RecommendationForm.OptionPairOrdered | src/components/caregiver-recommendation-form.tsx:41-61 | start option j and end option k pass the refinement exactly when j <= k |
| RecommendationForm.RequestedTime | src/components/caregiver-recommendation-form.tsx:96-103 | the time text is "s ~ e", "s부터", "e까지" or absent, according to which times are set |
| RecommendationForm.RequestedTimeInjective | src/components/caregiver-recommendation-form.tsx:96-103 | for menu labels, the time text determines which times were set and their values |
| RecommendationForm.RequestedDateRange | src/components/caregiver-recommendation-form.tsx:112-115 | a range is sent exactly when `from` is set, with `to` defaulting to `from` |
| RecommendationForm.FullRequest | src/components/caregiver-recommendation-form.tsx:106-118 | the request carries the name and phone, the birth date, the fallbacks '유형 무관' and '특별한 요구사항 없음', the range, the time text, and the gender parsed from the form's text ('남성' is Male, '여성' is Female, anything else none) |
| RecommendationForm.CheckedDaysArePickedDays | src/components/caregiver-recommendation-form.tsx:112-115 | the days the flow checks are the picked days, or the `from` day alone |
| RecommendationForm.AfterSubmit | src/components/caregiver-recommendation-form.tsx:119-129 | a result is shown as returned; the inquirer is remembered exactly when there is at least one card |
| CaregiverCard.Initials | src/components/caregiver-card.tsx:64 | the initial is the name's first character, or empty for an empty name |
| CaregiverCard.Summary | src/components/caregiver-card.tsx:66-68 | experience up to 50 characters is shown in full; longer is cut to 50 characters plus "..." |
| CaregiverCard.SummaryPrefixAndIdempotent | src/components/caregiver-card.tsx:66-68 | the summary shows a prefix of the experience, and summarising a summary changes nothing |
| CaregiverCard.Inquiry | src/components/caregiver-card.tsx:28-46 | without inquirer details the inquiry is refused with its message; otherwise the payload pairs the inquirer with the card |
| CaregiverCard.InquiryAfterSubmit | src/components/caregiver-card.tsx:39-46 | after a submission with cards, an inquiry from any card carries the name and phone from the form |
| CaregiverCard.InquiryAfterFailure | src/components/caregiver-card.tsx:29-36 | after a failed submission every inquiry is refused |
| SupportApplication.OptionalText | src/app/support/actions.ts:15-16 | an optional text passes exactly when it is a string |
| SupportApplication.ContactIssues | src/app/support/actions.ts:9 | the digits-only message appears exactly for a non-digit or empty contact, and the length message exactly for one shorter than 10, independently |
| SupportApplication.RegionIssues | src/app/support/actions.ts:10-12 | regions pass exactly when one of them is non-empty |
| SupportApplication.SchemaAcceptsExactly | src/app/support/actions.ts:7-19 | the schema accepts exactly the applications that meet every field's rule |
| SupportApplication.Submit | src/app/support/actions.ts:21-54 | a rejected application returns '입력 내용을 다시 확인해주세요.' with non-empty field errors; an accepted one returns no errors and the e-mail step's message or the server-error message |
| SupportApplication.RejectedIgnoresEmail | src/app/support/actions.ts:34-39 | a rejected application's answer does not depend on the e-mail step |
| SupportApplication.DashedShortContact | src/app/support/actions.ts:9 | "010-1234" gets both the digits-only and the length message, in that order |
| AdminActions.CoerceAge | workspace/src/app/admin/actions.ts:11 | `Number(v)`: `null` and blank text give 0, decimal digits give their value |
| AdminActions.CoerceAgeOfDecimalText | workspace/src/app/admin/actions.ts:11 | the decimal text of an age coerces back to that age |
| AdminActions.AgeIssues | workspace/src/app/admin/actions.ts:11 | the age passes exactly when it coerces to a number of at least 18; a non-number is the wrong type |
| AdminActions.PhotoUrlIssues | workspace/src/app/admin/actions.ts:10 | the photo passes exactly when it is a valid URL |
| AdminActions.SchemaAcceptsExactly | workspace/src/app/admin/actions.ts:8-16 | the add schema accepts exactly the forms meeting every field's rule |
| AdminActions.NonEmpty | workspace/src/app/admin/actions.ts:53 | `filter(Boolean)` keeps exactly the non-empty pieces, and changes nothing when none is empty |
| AdminActions.NonEmptyKeepsOrder | workspace/src/app/admin/actions.ts:51-53 | the kept pieces are a subsequence of the pieces, and each non-empty piece is kept as many times as it occurs |
| AdminActions.ParseList | workspace/src/app/admin/actions.ts:53 | the items are exactly the non-empty trimmed comma pieces of the text, in order and with their repeats; each is clean (non-empty, trimmed, comma-free) |
| AdminActions.ParseListOfJoin | workspace/src/app/admin/actions.ts:51-53 | parsing the comma-join of clean items gives the items back |
| AdminActions.ParseListDropsBlanks | workspace/src/app/admin/actions.ts:53 | ",," parses to no items |
| AdminActions.NewCaregiverOf | workspace/src/app/admin/actions.ts:44-54 | the stored record carries the validated name, an age of at least 18, the gender, and the parsed skills and certificates |
| AdminActions.AddCaregiver | workspace/src/app/admin/actions.ts:24-62 | success exactly when the form is acceptable and the store accepts the record; otherwise the check-input answer with field errors or the server-error message |
| AdminActions.DateIssues | workspace/src/app/admin/actions.ts:76 | the dates pass exactly when each is `dddd-dd-dd`; each failure carries the format message |
| AdminActions.SetUnavailability | workspace/src/app/admin/actions.ts:79-95 | success exactly for a non-empty id, well-formed dates and an accepting store; a bad date reports the format message, a bad id alone the generic message |
| AdminActions.MessagesOfDates | workspace/src/app/admin/actions.ts:84 | the first `dates` message is the format message whenever a date fails, and there is none otherwise |
| Settings.Kept | src/lib/settings.ts:17-19 | the kept values are exactly the defined values containing '@' |
| Settings.KeptOfAppend | src/lib/settings.ts:14-20 | keeping distributes over concatenation, so the kept values come in the order of the settings |
| Settings.KeptCounts | src/lib/settings.ts:17-18 | each usable value is kept as many times as it occurs |
| Settings.GetAdminEmails | src/lib/settings.ts:9-23 | the loop collects, in order, the usable values of settings 1 to 5: at most five addresses, each containing '@' |
| Settings.KeysDistinct | src/lib/settings.ts:15 | different slots read different setting names |
| Settings.NoSettingsNoAdmins | src/lib/settings.ts:9-23 | with none of the five settings defined there is no administrator address |
| CaregiverTypes.ParseGender | src/types/caregiver-types.ts:8 | exactly '남성' and '여성' are genders, and each parses to the gender whose text it is |
| CaregiverTypes.ParseGenderText | src/types/caregiver-types.ts:8 | the text of a gender parses back to that gender |

## Left out

- I/O is not modelled: the SQLite store, the fetch calls to `/api/caregivers`, the Resend e-mails, the toasts and the React rendering. The store's and the e-mail service's answers are parameters.
- The login action and session creation are not modelled. Only the middleware reads the session cookie.
- Randomness: `Math.random()` is a caller-supplied stream of draws. The model makes no statistical claim about how uniform the shuffle or the scores are.
- Time zones: day strings are integer day numbers. The model does not reproduce the shift that `toISOString()` can cause in caregiver-recommendation.ts:88-89 outside UTC, nor `new Date(...)` parsing.
- Calendar.DifferenceInYears: the birth date is an already parsed (year, month, day). A stored birth date that does not parse makes the source compute `NaN`, which the model does not represent.
- Date-fns 3 behaviour is assumed: `eachDayOfInterval` accepts a reversed interval, and an unparseable end gives no days. Under version 2 the source would throw instead and fall back to an empty result.
- AdminActions.CoerceAge: only decimal digit strings (after trimming) are read as numbers, and everything else counts as `NaN`. `Number` also accepts a sign, a decimal point, an exponent, the prefixes `0x`, `0b` and `0o` (so "0b10011" and "0o23" are 19), and "Infinity". zod 3 lets `Infinity` through `min(18)`, so the source accepts those ages, while AgeIssues reports the model's `NaN` as the wrong type.
- AdminActions.PhotoUrlIssues: URL validity is a predicate passed in, because zod's `url()` relies on the platform's URL parser.
- Text.ToLower: only ASCII letters are lower-cased. Hangul has no case, but other scripts are not modelled.
- One Dafny `char` stands for one UTF-16 code unit. Names outside the Basic Multilingual Plane are not distinguished.
- zod's default messages ("Expected string, received null", "Invalid enum value …") are represented by their kind, not by their wording.
- The fallback '미지정' at caregiver-recommendation.ts:124 is unreachable: a caregiver's gender is a required enum. ProjectionFallbacks states this.
- The recommendation form's "new recommendation" button calls `onSubmit` with the current values and bypasses the schema. That path is not modelled separately.
- The patient birth date of the request form is carried as already formatted text, since `format(..., 'yyyy-MM-dd')` is a date-fns formatting call.
- RouteGuard.Guard: Next.js matcher details such as trailing slashes, `basePath` and locale prefixes are not modelled. `/admin/:path*` is read as "/admin" or a path starting with "/admin/".
- The caregiver application's `null` optional fields (photo, certificates, self-introduction) are rejected as the wrong type, as zod does. The model keeps that behaviour as written.
- The page components (login form, sections, insurance claim forms) and the API route are outside the modelled core.

=== FILE: admin_actions.dfy ===
/**
  The admin server actions of the workspace application
  (workspace/src/app/admin/actions.ts): adding a caregiver from form data and
  replacing a caregiver's unavailable dates.  The store is a parameter: it
  either accepts the write or throws.
 */
module AdminActions {
  import opened Wrappers
  import opened Text
  import opened CaregiverTypes
  import opened Validation
  import opened Sequences
  import MaskName

  // ---------------------------------------------------------------- adding a caregiver

  /** The submitted form data; `None` is a field the form did not send. */
  datatype AddForm = AddForm(
    name: Option<string>,
    photoUrl: Option<string>,
    age: Option<string>,
    gender: Option<string>,
    certifications: Option<string>,
    experience: Option<string>,
    skills: Option<string>)

  const NameMissing := "이름을 입력해주세요."
  const BadPhotoUrl := "유효한 이미지 URL을 입력해주세요."
  const TooYoung := "나이는 18세 이상이어야 합니다."
  const ExperienceMissing := "경력을 입력해주세요."
  const SkillsMissing := "기술을 하나 이상 입력해주세요."
  const AddFailed := "서버 오류로 인해 간병인 추가에 실패했습니다."

  /** A number produced by coercion: a value, or NaN. */
  datatype Coerced = Finite(value: int) | NaN

  /**
    `Number(value)` for the age field: `null`, the empty and the blank text
    are 0, decimal digits (with surrounding whitespace) are their value, and
    anything else is NaN.
   */
  function CoerceAge(v: Option<string>): (r: Coerced)
    ensures v.None? ==> r == Finite(0)
    ensures v.Some? && Trim(v.value) == "" ==> r == Finite(0)
    ensures v.Some? && AllDigits(Trim(v.value)) ==> r == Finite(DigitsValue(Trim(v.value)))
    ensures r.Finite? ==> r.value >= 0
  {
    match v
    case None => Finite(0)
    case Some(s) =>
      var t := Trim(s);
      if AllDigits(t) then Finite(DigitsValue(t)) else NaN
  }

  /** An age written as a number's decimal text is read back as that number. */
  lemma CoerceAgeOfDecimalText(n: nat)
    ensures CoerceAge(Some(DecimalText(n))) == Finite(n)
  {
    var t := DecimalText(n);
    assert !IsWhitespace(t[0]) && !IsWhitespace(t[|t| - 1]);
    assert Trim(t) == t;
    DigitsValueOfDecimalText(n);
  }

  /** `z.coerce.number().min(18, …)`. */
  function AgeIssues(v: Option<string>): (r: seq<Issue>)
    ensures r == [] <==> CoerceAge(v).Finite? && CoerceAge(v).value >= 18
    ensures CoerceAge(v).NaN? ==> r == [Issue("age", WrongType)]
  {
    match CoerceAge(v)
    case NaN => [Issue("age", WrongType)]
    case Finite(n) => if n < 18 then [Issue("age", Says(TooYoung))] else []
  }

  /** `z.string().url(…)`; `isUrl` stands for the URL parser's verdict. */
  function PhotoUrlIssues(v: Option<string>, isUrl: string -> bool): (r: seq<Issue>)
    ensures r == [] <==> v.Some? && isUrl(v.value)
  {
    match v
    case None => [Issue("photoUrl", WrongType)]
    case Some(s) => if isUrl(s) then [] else [Issue("photoUrl", Says(BadPhotoUrl))]
  }

  /** The issues of `AddCaregiverFormSchema`, in the schema's field order. */
  function AddIssues(f: AddForm, isUrl: string -> bool): seq<Issue> {
    RequiredText("name", f.name, NameMissing)
    + PhotoUrlIssues(f.photoUrl, isUrl)
    + AgeIssues(f.age)
    + GenderIssues("gender", f.gender, WrongType)
    + (if f.certifications.None? then [Issue("certifications", WrongType)] else [])
    + RequiredText("experience", f.experience, ExperienceMissing)
    + RequiredText("skills", f.skills, SkillsMissing)
  }

  /** An acceptable new caregiver, stated field by field. */
  predicate Acceptable(f: AddForm, isUrl: string -> bool) {
    && f.name.Some? && f.name.value != ""
    && f.photoUrl.Some? && isUrl(f.photoUrl.value)
    && CoerceAge(f.age).Finite? && CoerceAge(f.age).value >= 18
    && f.gender.Some? && (f.gender.value == "남성" || f.gender.value == "여성")
    && f.certifications.Some?
    && f.experience.Some? && f.experience.value != ""
    && f.skills.Some? && f.skills.value != ""
  }

  /** The schema accepts exactly the acceptable forms. */
  lemma SchemaAcceptsExactly(f: AddForm, isUrl: string -> bool)
    ensures AddIssues(f, isUrl) == [] <==> Acceptable(f, isUrl)
  {
  }

  /** `filter(Boolean)` on strings: keeps the non-empty pieces and drops the empty ones. */
  function NonEmpty(pieces: seq<string>): (r: seq<string>)
    ensures |r| <= |pieces|
    ensures forall k :: 0 <= k < |r| ==> r[k] != "" && r[k] in pieces
    ensures forall p :: p in pieces && p != "" ==> p in r
    ensures (forall k :: 0 <= k < |pieces| ==> pieces[k] != "") ==> r == pieces
  {
    if |pieces| == 0 then []
    else
      var rest := NonEmpty(pieces[1..]);
      assert pieces == [pieces[0]] + pieces[1..];
      if pieces[0] == "" then rest else [pieces[0]] + rest
  }

  /**
    The kept pieces come in the order of `pieces` and with their repeats:
    each non-empty piece is kept as many times as it occurs.
   */
  lemma {:induction false} NonEmptyKeepsOrder(pieces: seq<string>)
    ensures IsSubsequence(NonEmpty(pieces), pieces)
    ensures forall p :: p != "" ==> multiset(NonEmpty(pieces))[p] == multiset(pieces)[p]
  {
    if |pieces| > 0 {
      var rest := NonEmpty(pieces[1..]);
      NonEmptyKeepsOrder(pieces[1..]);
      assert pieces == [pieces[0]] + pieces[1..];
      assert multiset(pieces) == multiset{pieces[0]} + multiset(pieces[1..]);
      if pieces[0] == "" {
        SubsequenceOfTail(rest, pieces);
      } else {
        var r := [pieces[0]] + rest;
        assert r[1..] == rest;
        assert multiset(r) == multiset{pieces[0]} + multiset(rest);
      }
    }
  }

  /** A list item as a clean entry: non-empty, no comma, no whitespace at its edges. */
  predicate CleanItem(s: string) {
    s != "" && ',' !in s && !IsWhitespace(s[0]) && !IsWhitespace(s[|s| - 1])
  }

  /** Trimming comma-free pieces leaves each either empty or clean. */
  lemma TrimmedPiecesClean(parts: seq<string>)
    requires forall k :: 0 <= k < |parts| ==> ',' !in parts[k]
    ensures forall p :: p in TrimEach(parts) && p != "" ==> CleanItem(p)
  {
    var t := TrimEach(parts);
    forall p | p in t && p != ""
      ensures CleanItem(p)
    {
      var k :| 0 <= k < |t| && t[k] == p;
      assert p == Trim(parts[k]);
    }
  }

  /**
    `text.split(',').map(s => s.trim()).filter(Boolean)`: every non-empty
    trimmed piece of the text, in order and with its repeats.
   */
  function ParseList(text: string): (r: seq<string>)
    ensures forall k :: 0 <= k < |r| ==> CleanItem(r[k])
    ensures forall k :: 0 <= k < |r| ==> r[k] in TrimEach(Split(text, ','))
    ensures forall p :: p in TrimEach(Split(text, ',')) && p != "" ==> p in r
    ensures forall p :: p != "" ==> multiset(r)[p] == multiset(TrimEach(Split(text, ',')))[p]
    ensures IsSubsequence(r, TrimEach(Split(text, ',')))
  {
    TrimmedPiecesClean(Split(text, ','));
    NonEmptyKeepsOrder(TrimEach(Split(text, ',')));
    NonEmpty(TrimEach(Split(text, ',')))
  }

  /** Clean items are their own trim. */
  lemma TrimEachOfClean(items: seq<string>)
    requires forall k :: 0 <= k < |items| ==> CleanItem(items[k])
    ensures TrimEach(items) == items
  {
  }

  /** Parsing the comma-joined text of clean items gives the items back. */
  lemma ParseListOfJoin(items: seq<string>)
    requires forall k :: 0 <= k < |items| ==> CleanItem(items[k])
    ensures ParseList(Join(items, ',')) == items
  {
    if |items| == 0 {
      assert TrimEach([""]) == [""];
    } else {
      SplitJoin(items, ',');
      TrimEachOfClean(items);
    }
  }

  /** Blank pieces disappear: ",," lists nothing. */
  lemma ParseListDropsBlanks()
    ensures |ParseList(",,")| == 0
  {
    assert Split(",,", ',') == ["", "", ""] by {
      assert Split("", ',') == [""];
      assert ","[1..] == "";
      assert Split(",", ',') == [""] + Split("", ',');
    }
    assert Trim("") == "";
  }

  /** The caregiver the store is asked to add. */
  datatype NewCaregiver = NewCaregiver(
    name: string,
    photoUrl: string,
    age: int,
    gender: Gender,
    certifications: seq<string>,
    experience: string,
    skills: seq<string>)

  /** The action's answer. */
  datatype AddResult = AddResult(success: bool, message: string, errors: Option<map<string, seq<Message>>>)

  /** The message shown after a successful add: the masked name, quoted. */
  function AddedMessage(name: string): string {
    "'" + MaskName.MaskName(name) + "' 간병인이 성공적으로 추가되었습니다."
  }

  /** The record built from accepted form data. */
  function NewCaregiverOf(f: AddForm, isUrl: string -> bool): (c: NewCaregiver)
    requires Acceptable(f, isUrl)
    ensures c.name == f.name.value && c.age >= 18 && GenderText(c.gender) == f.gender.value
    ensures c.skills == ParseList(f.skills.value)
    ensures c.certifications == if f.certifications.value == "" then [] else ParseList(f.certifications.value)
  {
    NewCaregiver(
      f.name.value,
      f.photoUrl.value,
      CoerceAge(f.age).value,
      ParseGender(f.gender.value).value,
      if f.certifications.value == "" then [] else ParseList(f.certifications.value),
      f.experience.value,
      ParseList(f.skills.value))
  }

  /**
    `addCaregiverAction`.  `storeAccepts` says whether the store's insert
    succeeds for the record; a rejected form never reaches the store.
   */
  function AddCaregiver(f: AddForm, isUrl: string -> bool, storeAccepts: NewCaregiver -> bool): (r: AddResult)
    ensures !Acceptable(f, isUrl) ==>
      r == AddResult(false, CheckInput, Some(FieldErrors(AddIssues(f, isUrl))))
    ensures Acceptable(f, isUrl) && storeAccepts(NewCaregiverOf(f, isUrl)) ==>
      r == AddResult(true, AddedMessage(f.name.value), None)
    ensures Acceptable(f, isUrl) && !storeAccepts(NewCaregiverOf(f, isUrl)) ==>
      r == AddResult(false, AddFailed, None)
    ensures r.success <==> Acceptable(f, isUrl) && storeAccepts(NewCaregiverOf(f, isUrl))
  {
    SchemaAcceptsExactly(f, isUrl);
    var issues := AddIssues(f, isUrl);
    if issues != [] then AddResult(false, CheckInput, Some(FieldErrors(issues)))
    else
      var c := NewCaregiverOf(f, isUrl);
      if storeAccepts(c) then AddResult(true, AddedMessage(c.name), None)
      else AddResult(false, AddFailed, None)
  }

  // ---------------------------------------------------------------- unavailable dates

  /** The payload of `setUnavailabilityAction`. */
  datatype UnavailabilityPayload = UnavailabilityPayload(caregiverId: string, dates: seq<string>)

  const IdMissing := "간병인 ID가 필요합니다."
  const BadDate := "날짜는 YYYY-MM-DD 형식이어야 합니다."
  const BadPayload := "잘못된 데이터가 전송되었습니다."
  const DatesSaved := "일정이 성공적으로 업데이트되었습니다."
  const SaveFailed := "일정 업데이트 중 서버 오류가 발생했습니다."

  /** `/^\d{4}-\d{2}-\d{2}$/`: four, two and two ASCII digits joined by dashes, nothing else. */
  predicate IsoDayText(s: string) {
    && |s| == 10
    && s[4] == '-' && s[7] == '-'
    && AllDigits(s[..4]) && AllDigits(s[5..7]) && AllDigits(s[8..])
  }

  /** One issue for every malformed date, in order, all reported against `dates`. */
  function DateIssues(dates: seq<string>): (r: seq<Issue>)
    ensures r == [] <==> forall k :: 0 <= k < |dates| ==> IsoDayText(dates[k])
    ensures forall i :: i in r ==> i == Issue("dates", Says(BadDate))
  {
    if |dates| == 0 then []
    else (if IsoDayText(dates[0]) then [] else [Issue("dates", Says(BadDate))]) + DateIssues(dates[1..])
  }

  function UnavailabilityIssues(p: UnavailabilityPayload): seq<Issue> {
    MinLength("caregiverId", p.caregiverId, 1, IdMissing) + DateIssues(p.dates)
  }

  /**
    `setUnavailabilityAction`.  A rejected payload answers with the first
    date message when a date is malformed and the general text otherwise;
    `storeAccepts` says whether the store's update succeeds.
   */
  function SetUnavailability(p: UnavailabilityPayload, storeAccepts: bool): (r: (bool, string))
    ensures r.0 <==> p.caregiverId != "" && (forall k :: 0 <= k < |p.dates| ==> IsoDayText(p.dates[k])) && storeAccepts
    ensures (exists k :: 0 <= k < |p.dates| && !IsoDayText(p.dates[k])) ==> r == (false, BadDate)
    ensures p.caregiverId == "" && (forall k :: 0 <= k < |p.dates| ==> IsoDayText(p.dates[k])) ==> r == (false, BadPayload)
    ensures p.caregiverId != "" && (forall k :: 0 <= k < |p.dates| ==> IsoDayText(p.dates[k])) ==>
      r == (storeAccepts, if storeAccepts then DatesSaved else SaveFailed)
  {
    var issues := UnavailabilityIssues(p);
    var idIssues := MinLength("caregiverId", p.caregiverId, 1, IdMissing);
    MessagesOfDates(idIssues, DateIssues(p.dates));
    if issues != [] then
      var dateMessages := Messages(issues, "dates");
      (false, if |dateMessages| > 0 then dateMessages[0].text else BadPayload)
    else
      (storeAccepts, if storeAccepts then DatesSaved else SaveFailed)
  }

  /** The messages under `dates` are exactly one per malformed date. */
  lemma MessagesOfDates(idIssues: seq<Issue>, dateIssues: seq<Issue>)
    requires forall i :: i in idIssues ==> i.field == "caregiverId"
    requires forall i :: i in dateIssues ==> i == Issue("dates", Says(BadDate))
    ensures dateIssues == [] ==> Messages(idIssues + dateIssues, "dates") == []
    ensures dateIssues != [] ==> |Messages(idIssues + dateIssues, "dates")| > 0 && Messages(idIssues + dateIssues, "dates")[0] == Says(BadDate)
  {
    var all := idIssues + dateIssues;
    MessagesMembers(all, "dates");
    if dateIssues != [] {
      assert dateIssues[0] in dateIssues;
      assert all[|idIssues|] == dateIssues[0];
      assert Says(BadDate) in Messages(all, "dates");
      var m := Messages(all, "dates")[0];
      assert Issue("dates", m) in all;
    } else {
      assert all == idIssues;
      assert !Flagged(all, "dates");
    }
  }
}

=== FILE: admin_roster.dfy ===
/**
  The caregiver list of the admin console (src/app/admin/page.tsx): the
  roster sorted by id, newest first, the search filter, the updates after
  add, edit and delete, and the row selection.
 */
module AdminRoster {
  import opened Text
  import opened Sorting
  import opened CaregiverTypes
  import opened Sequences

  /** The sort key `(c.id || 0)`; ids are natural numbers, so it is the id itself. */
  function IdKey(c: Caregiver): int {
    c.id
  }

  /** The roster as loaded: every fetched caregiver once, by id, highest first. */
  function Loaded(data: seq<Caregiver>): (r: seq<Caregiver>)
    ensures |r| == |data|
    ensures multiset(r) == multiset(data)
    ensures SortedDesc(r, IdKey)
  {
    SortDesc(data, IdKey)
  }

  /** The search: a caregiver matches when its lower-cased name contains the lower-cased term. */
  predicate NameMatches(c: Caregiver, term: string) {
    Contains(ToLower(c.name), ToLower(term))
  }

  /** `filteredCaregivers`: the whole list for an empty term, else the matches in list order. */
  function Filtered(list: seq<Caregiver>, term: string): (r: seq<Caregiver>)
    ensures term == "" ==> r == list
    ensures |r| <= |list|
    ensures forall c :: c in r <==> c in list && (term == "" || NameMatches(c, term))
    ensures forall c :: multiset(r)[c] == if term == "" || NameMatches(c, term) then multiset(list)[c] else 0
  {
    if term == "" then list
    else
      FilterMatchingCounts(list, term);
      FilterMatching(list, term)
  }

  function FilterMatching(list: seq<Caregiver>, term: string): (r: seq<Caregiver>)
    ensures |r| <= |list|
    ensures forall c :: c in r <==> c in list && NameMatches(c, term)
  {
    if |list| == 0 then []
    else
      var rest := FilterMatching(list[1..], term);
      assert list == [list[0]] + list[1..];
      if NameMatches(list[0], term) then [list[0]] + rest else rest
  }

  /** The search keeps each matching caregiver as often as it occurs and drops the others. */
  lemma {:induction false} FilterMatchingCounts(list: seq<Caregiver>, term: string)
    ensures forall c :: multiset(FilterMatching(list, term))[c] == if NameMatches(c, term) then multiset(list)[c] else 0
  {
    if |list| > 0 {
      FilterMatchingCounts(list[1..], term);
      assert list == [list[0]] + list[1..];
      assert multiset(list) == multiset{list[0]} + multiset(list[1..]);
    }
  }

  /** The search result keeps the list's order. */
  lemma {:induction false} FilterMatchingKeepsOrder(list: seq<Caregiver>, term: string)
    ensures IsSubsequence(FilterMatching(list, term), list)
  {
    if |list| > 0 {
      FilterMatchingKeepsOrder(list[1..], term);
      var rest := FilterMatching(list[1..], term);
      if NameMatches(list[0], term) {
        assert FilterMatching(list, term) == [list[0]] + rest;
        assert ([list[0]] + rest)[1..] == rest;
      } else {
        SubsequenceOfTail(rest, list);
      }
    }
  }

  /** `handleAddSuccess`: the new caregiver joins the list, which is sorted by id again. */
  function Added(list: seq<Caregiver>, c: Caregiver): (r: seq<Caregiver>)
    ensures |r| == |list| + 1
    ensures multiset(r) == multiset(list) + multiset{c}
    ensures SortedDesc(r, IdKey)
  {
    SortDesc([c] + list, IdKey)
  }

  /** `handleEditSuccess`: every entry with the updated caregiver's id is replaced by it. */
  function Edited(list: seq<Caregiver>, updated: Caregiver): (r: seq<Caregiver>)
    ensures |r| == |list|
    ensures forall k :: 0 <= k < |list| && list[k].id != updated.id ==> r[k] == list[k]
    ensures forall k :: 0 <= k < |list| && list[k].id == updated.id ==> r[k] == updated
  {
    if |list| == 0 then []
    else [if list[0].id == updated.id then updated else list[0]] + Edited(list[1..], updated)
  }

  /** Editing keeps the ids in place, and editing twice with the same record changes nothing more. */
  lemma EditKeepsIds(list: seq<Caregiver>, updated: Caregiver)
    ensures forall k :: 0 <= k < |list| ==> Edited(list, updated)[k].id == list[k].id
    ensures Edited(Edited(list, updated), updated) == Edited(list, updated)
  {
  }

  /** `handleDeleteSuccess`: drops every caregiver whose id was deleted, keeping the others in order. */
  function Deleted(list: seq<Caregiver>, deletedIds: seq<nat>): (r: seq<Caregiver>)
    ensures |r| <= |list|
    ensures forall c :: c in r <==> c in list && c.id !in deletedIds
    ensures IsSubsequence(r, list)
  {
    if |list| == 0 then []
    else
      var rest := Deleted(list[1..], deletedIds);
      assert list == [list[0]] + list[1..];
      if list[0].id in deletedIds then
        SubsequenceOfTail(rest, list);
        rest
      else
        assert ([list[0]] + rest)[1..] == rest;
        [list[0]] + rest
  }

  /** A delete keeps each caregiver whose id was not deleted as often as it occurs and drops the others. */
  lemma {:induction false} DeletedCounts(list: seq<Caregiver>, deletedIds: seq<nat>)
    ensures forall c :: multiset(Deleted(list, deletedIds))[c] == if c.id in deletedIds then 0 else multiset(list)[c]
  {
    if |list| > 0 {
      DeletedCounts(list[1..], deletedIds);
      assert list == [list[0]] + list[1..];
      assert multiset(list) == multiset{list[0]} + multiset(list[1..]);
    }
  }

  /** Deleting in two rounds is deleting the union of both id lists at once. */
  lemma {:induction false} DeleteTwice(list: seq<Caregiver>, a: seq<nat>, b: seq<nat>)
    ensures Deleted(Deleted(list, a), b) == Deleted(list, a + b)
  {
    if |list| > 0 {
      DeleteTwice(list[1..], a, b);
    }
  }

  /** `handleSelectAllRows`: all ids of the visible list when checked, none otherwise. */
  function SelectAll(filtered: seq<Caregiver>, checked: bool): (r: seq<nat>)
    ensures !checked ==> r == []
    ensures checked ==> |r| == |filtered| && forall k :: 0 <= k < |r| ==> r[k] == filtered[k].id
  {
    if !checked || |filtered| == 0 then []
    else [filtered[0].id] + SelectAll(filtered[1..], checked)
  }

  /** `handleSelectRow`: checking appends the id (even when already there), unchecking removes every copy. */
  function SelectRow(selected: seq<nat>, id: nat, checked: bool): (r: seq<nat>)
    ensures checked ==> r == selected + [id]
    ensures !checked ==> id !in r && forall x :: x != id ==> (x in r <==> x in selected)
    ensures !checked ==> IsSubsequence(r, selected)
  {
    if checked then selected + [id] else Without(selected, id)
  }

  /** `selected.filter(rowId => rowId !== id)`. */
  function Without(selected: seq<nat>, id: nat): (r: seq<nat>)
    ensures id !in r
    ensures forall x :: x != id ==> (x in r <==> x in selected)
    ensures forall x :: x != id ==> multiset(r)[x] == multiset(selected)[x]
    ensures IsSubsequence(r, selected)
  {
    if |selected| == 0 then []
    else
      var rest := Without(selected[1..], id);
      assert selected == [selected[0]] + selected[1..];
      if selected[0] == id then
        SubsequenceOfTail(rest, selected);
        rest
      else
        assert ([selected[0]] + rest)[1..] == rest;
        [selected[0]] + rest
  }

  /** Checking a row and then unchecking it removes the id entirely. */
  lemma CheckThenUncheck(selected: seq<nat>, id: nat)
    ensures SelectRow(SelectRow(selected, id, true), id, false) == Without(selected, id)
  {
    WithoutAppend(selected, id);
  }

  lemma {:induction false} WithoutAppend(selected: seq<nat>, id: nat)
    ensures Without(selected + [id], id) == Without(selected, id)
  {
    if |selected| == 0 {
      assert Without([id], id) == Without([id][1..], id);
    } else {
      assert (selected + [id])[1..] == selected[1..] + [id];
      WithoutAppend(selected[1..], id);
    }
  }
}

=== FILE: calendar.dfy ===
/**
  Dates, at day granularity.  A calendar date is a (year, month, day) triple;
  a day number counts days, so consecutive calendar days have consecutive
  numbers.  Time of day and time zones are not modelled.
 */
module Calendar {

  datatype CalDate = CalDate(year: int, month: int, day: int)

  /** Chronological order of calendar dates. */
  predicate Before(a: CalDate, b: CalDate) {
    || a.year < b.year
    || (a.year == b.year && a.month < b.month)
    || (a.year == b.year && a.month == b.month && a.day < b.day)
  }

  /** Order of the (month, day) parts only, as if both dates were in one year. */
  predicate MonthDayBefore(a: CalDate, b: CalDate) {
    a.month < b.month || (a.month == b.month && a.day < b.day)
  }

  /** date-fns `compareAsc`: -1, 0 or 1. */
  function CompareAsc(a: CalDate, b: CalDate): int {
    if Before(a, b) then -1 else if Before(b, a) then 1 else 0
  }

  /** `compareAsc` after both dates are moved into the same (leap) year. */
  function CompareMonthDay(a: CalDate, b: CalDate): int {
    if MonthDayBefore(a, b) then -1 else if MonthDayBefore(b, a) then 1 else 0
  }

  function Abs(x: int): nat {
    if x < 0 then -x else x
  }

  /** The date `n` years after `d`, same month and day. */
  function AddYears(d: CalDate, n: int): CalDate {
    CalDate(d.year + n, d.month, d.day)
  }

  /**
    date-fns `differenceInYears(left, right)`: the sign of `left - right`
    times the calendar-year distance, less one when the last year is not full.
   */
  function DifferenceInYears(left: CalDate, right: CalDate): int {
    var sign := CompareAsc(left, right);
    var difference := Abs(left.year - right.year);
    var lastYearNotFull := CompareMonthDay(left, right) == -sign;
    var result := sign * (difference - if lastYearNotFull then 1 else 0);
    if result == 0 then 0 else result
  }

  /**
    The difference counts whole years: when `right` is not after `left`, the
    result is the `n >= 0` with the `n`-th anniversary of `right` not after
    `left` and the next anniversary after it.
   */
  lemma FullYearsElapsed(left: CalDate, right: CalDate)
    requires !Before(left, right)
    ensures DifferenceInYears(left, right) >= 0
    ensures !Before(left, AddYears(right, DifferenceInYears(left, right)))
    ensures Before(left, AddYears(right, DifferenceInYears(left, right) + 1))
  {
  }

  /** Exactly `n` years after a date, the difference is `n`. */
  lemma AnniversaryDifference(d: CalDate, n: nat)
    ensures DifferenceInYears(AddYears(d, n), d) == n
  {
  }

  /** Swapping the arguments negates the difference. */
  lemma DifferenceAntisymmetric(a: CalDate, b: CalDate)
    ensures DifferenceInYears(a, b) == -DifferenceInYears(b, a)
  {
  }

  function Min(a: int, b: int): int {
    if a <= b then a else b
  }

  function Max(a: int, b: int): int {
    if a <= b then b else a
  }

  /** The days `lo, lo + 1, ..., hi`; empty when `hi < lo`. */
  function DaysUpFrom(lo: int, hi: int): (r: seq<int>)
    ensures |r| == if hi < lo then 0 else hi - lo + 1
    ensures forall k :: 0 <= k < |r| ==> r[k] == lo + k
    decreases hi - lo
  {
    if hi < lo then [] else [lo] + DaysUpFrom(lo + 1, hi)
  }

  function Reverse(s: seq<int>): (r: seq<int>)
    ensures |r| == |s|
    ensures forall k :: 0 <= k < |s| ==> r[k] == s[|s| - 1 - k]
  {
    if |s| == 0 then [] else Reverse(s[1..]) + [s[0]]
  }

  /**
    date-fns 3 `eachDayOfInterval({start, end})`: every day of the interval,
    in the direction from `start` to `end`.  A reversed interval is walked
    backwards.
   */
  function EachDayOfInterval(start: int, end: int): (r: seq<int>)
    ensures |r| == Abs(end - start) + 1
    ensures r[0] == start && r[|r| - 1] == end
    ensures forall d :: d in r <==> Min(start, end) <= d <= Max(start, end)
  {
    var lo, hi := Min(start, end), Max(start, end);
    var ascending := DaysUpFrom(lo, hi);
    assert forall d :: d in ascending <==> lo <= d <= hi by {
      forall d | lo <= d <= hi ensures d in ascending {
        assert ascending[d - lo] == d;
      }
    }
    if start <= end then ascending
    else
      var r := Reverse(ascending);
      assert forall d :: d in r <==> d in ascending by {
        forall d ensures d in r <==> d in ascending {
          if d in ascending {
            var k :| 0 <= k < |ascending| && ascending[k] == d;
            assert r[|ascending| - 1 - k] == d;
          }
        }
      }
      r
  }
}

=== FILE: caregiver_card.dfy ===
/**
  The recommendation card (src/components/caregiver-card.tsx): the avatar
  initial, the shortened experience line, and the guard that keeps an
  inquiry from being sent without the asker's details.
 */
module CaregiverCard {
  import opened Wrappers
  import opened CaregiverTypes
  import RecommendationForm

  /** The avatar fallback: the first character of the name, or nothing. */
  function Initials(name: string): (r: string)
    ensures name == "" <==> r == ""
    ensures name != "" ==> r == [name[0]]
  {
    if |name| > 0 then name[..1] else ""
  }

  /** The longest experience text shown in full. */
  const SummaryLimit := 50

  /** The experience line: longer texts are cut to 50 characters and marked with "...". */
  function Summary(experience: string): (r: string)
    ensures |experience| <= SummaryLimit ==> r == experience
    ensures |experience| > SummaryLimit ==> |r| == SummaryLimit + 3 && r[..SummaryLimit] == experience[..SummaryLimit] && r[SummaryLimit..] == "..."
    ensures |r| <= SummaryLimit + 3
  {
    if |experience| > SummaryLimit then experience[..SummaryLimit] + "..." else experience
  }

  /**
    The summary shows a prefix of the experience, and summarising a summary
    changes nothing.
   */
  lemma SummaryPrefixAndIdempotent(experience: string)
    ensures var r := Summary(experience);
      && (if |r| > SummaryLimit then r[..SummaryLimit] else r) <= experience
      && Summary(r) == r
  {
  }

  /** The message sent to the service when the card asks for the caregiver. */
  datatype InquiryPayload = InquiryPayload(
    userName: string,
    userPhone: string,
    caregiverName: string,
    caregiverAge: int,
    caregiverGender: string,
    caregiverPhone: string)

  datatype InquiryOutcome = Refused(message: string) | Sends(payload: InquiryPayload)

  const NoInquirer := "문의자 정보가 없습니다. 양식을 다시 작성해주세요."

  /** `handleInquirySubmit`: refuses without the asker's details, otherwise sends one inquiry. */
  function Inquiry(card: Recommendation, inquirer: Option<RecommendationForm.Inquirer>): (r: InquiryOutcome)
    ensures inquirer.None? <==> r == Refused(NoInquirer)
    ensures inquirer.Some? ==>
      && r.Sends?
      && r.payload.userName == inquirer.value.name && r.payload.userPhone == inquirer.value.phone
      && r.payload.caregiverName == card.name && r.payload.caregiverAge == card.age
      && r.payload.caregiverGender == card.gender && r.payload.caregiverPhone == card.phone
  {
    match inquirer
    case None => Refused(NoInquirer)
    case Some(who) => Sends(InquiryPayload(who.name, who.phone, card.name, card.age, card.gender, card.phone))
  }

  /**
    After a submission that produced cards, an inquiry from any of them is
    sent with the name and phone entered in the form.
   */
  lemma InquiryAfterSubmit(v: RecommendationForm.FormValues, out: RecommendationOutput, card: Recommendation)
    requires card in out.recommendations
    ensures var shown := RecommendationForm.AfterSubmit(v, Some(out));
      Inquiry(card, shown.inquirer) == Sends(InquiryPayload(v.name, v.phone, card.name, card.age, card.gender, card.phone))
  {
  }

  /** A failed submission leaves nothing to inquire with. */
  lemma InquiryAfterFailure(v: RecommendationForm.FormValues, card: Recommendation)
    ensures Inquiry(card, RecommendationForm.AfterSubmit(v, None).inquirer) == Refused(NoInquirer)
  {
  }
}

=== FILE: caregiver_types.dfy ===
/**
  The caregiver record and the recommendation request and result shapes
  (src/types/caregiver-types.ts).
 */
module CaregiverTypes {
  import opened Wrappers
  import opened Calendar

  /** '가능' (available) or '불가능' (unavailable). */
  datatype Status = Available | Unavailable

  /** '남성' (male) or '여성' (female). */
  datatype Gender = Male | Female

  function StatusText(s: Status): string {
    match s
    case Available => "가능"
    case Unavailable => "불가능"
  }

  function GenderText(g: Gender): string {
    match g
    case Male => "남성"
    case Female => "여성"
  }

  /** The inverse of `GenderText`: recognises exactly the two enum strings. */
  function ParseGender(s: string): (r: Option<Gender>)
    ensures r.Some? <==> s == "남성" || s == "여성"
    ensures r.Some? ==> GenderText(r.value) == s
  {
    if s == "남성" then Some(Male)
    else if s == "여성" then Some(Female)
    else None
  }

  /** Parsing the text of a gender gives that gender back. */
  lemma ParseGenderText(g: Gender)
    ensures ParseGender(GenderText(g)) == Some(g)
  {
  }

  /**
    A caregiver as the store returns it.  `birthDate` is `None` when the stored
    text is empty; `unavailableDates` holds day numbers.
   */
  datatype Caregiver = Caregiver(
    id: nat,
    name: string,
    status: Status,
    phone: string,
    photoUrl: Option<string>,
    birthDate: Option<CalDate>,
    gender: Gender,
    experience: Option<string>,
    certifications: Option<string>,
    specialNotes: Option<string>,
    unavailableDates: seq<int>)

  /** A date string of a request: a well-formed `yyyy-MM-dd` day, or text that does not parse. */
  datatype DateText = IsoDay(day: int) | Malformed(text: string)

  /** `requestedDateRange`; `None` stands for an absent or empty string. */
  datatype DateRange = DateRange(from: Option<DateText>, to: Option<DateText>)

  datatype RecommendationInput = RecommendationInput(
    patientGender: Option<Gender>,
    patientBirthDate: Option<string>,
    careType: string,
    requestedDateRange: Option<DateRange>,
    requestedTime: Option<string>,
    specificNeeds: string)

  /** One entry of `recommendations`. */
  datatype Recommendation = Recommendation(
    name: string,
    age: int,
    gender: string,
    experience: string,
    certifications: seq<string>,
    suitabilityScore: int,
    phone: string,
    photoUrl: Option<string>)

  /** The result of one recommendation call. */
  datatype RecommendationOutput = RecommendationOutput(recommendations: seq<Recommendation>)
}

=== FILE: dates_editor.dfy ===
/**
  The unavailable-dates editor of the admin console
  (src/components/admin/unavailable-dates-manager.tsx) as a state machine
  over the set of selected days and the last clicked day (the anchor of a
  shift-click range).  Every click and every clear also sends the new set to
  the server; the server's answer arrives later as its own event.
 */
module DatesEditor {
  import opened Wrappers
  import opened Calendar

  datatype EditorState = EditorState(dates: set<int>, anchor: Option<int>)

  datatype Event =
    | DayClick(day: Option<int>, shift: bool)   // `day` is `None` when the calendar reports no day
    | ClearDates
    | UpdateSucceeded(serverDates: seq<int>)    // the dates of the caregiver the server returned
    | UpdateFailed

  /** The days from `lo` to `hi`, inclusive. */
  function DaySpan(lo: int, hi: int): (r: set<int>)
    ensures forall d :: d in r <==> lo <= d <= hi
  {
    var days := DaysUpFrom(lo, hi);
    forall d | lo <= d <= hi
      ensures d in days
    {
      assert days[d - lo] == d;
    }
    set d | d in days
  }

  /** The caregiver's stored dates as a set of days. */
  function DaySet(days: seq<int>): (r: set<int>)
    ensures forall d :: d in r <==> d in days
  {
    set d | d in days
  }

  /** The state the editor opens with: the caregiver's dates and no anchor. */
  function Initial(original: seq<int>): EditorState {
    EditorState(DaySet(original), None)
  }

  /** A plain click: removes the day when it is selected, adds it otherwise. */
  function Toggle(dates: set<int>, day: int): (r: set<int>)
    ensures day in r <==> day !in dates
    ensures forall d :: d != day ==> (d in r <==> d in dates)
  {
    if day in dates then dates - {day} else dates + {day}
  }

  /**
    The loop `for (i = from; i <= span; i++) add(start + i)` of a
    shift-click: adds the days `start + from` to `start + span`.
   */
  function AddSpan(dates: set<int>, start: int, from: nat, span: int): (r: set<int>)
    ensures r == dates + DaySpan(start + from, start + span)
    decreases span - from
  {
    if span < from then
      assert DaySpan(start + from, start + span) == {};
      dates
    else
      var r := AddSpan(dates + {start + from}, start, from + 1, span);
      assert DaySpan(start + from, start + span) == {start + from} + DaySpan(start + from + 1, start + span);
      r
  }

  /** A shift-click with an anchor: adds every day between the anchor and the clicked day. */
  function AddRange(dates: set<int>, anchor: int, day: int): (r: set<int>)
    ensures r == dates + DaySpan(Min(anchor, day), Max(anchor, day))
  {
    var start := Min(anchor, day);
    AddSpan(dates, start, 0, Max(anchor, day) - start)
  }

  /** `handleDayClick` for a day the calendar reported. */
  function Click(st: EditorState, day: int, shift: bool): (r: EditorState)
    ensures r.anchor == Some(day)
    ensures shift && st.anchor.Some? ==> r.dates == st.dates + DaySpan(Min(st.anchor.value, day), Max(st.anchor.value, day))
    ensures !(shift && st.anchor.Some?) ==> r.dates == Toggle(st.dates, day)
  {
    var dates := if shift && st.anchor.Some? then AddRange(st.dates, st.anchor.value, day) else Toggle(st.dates, day);
    EditorState(dates, Some(day))
  }

  /**
    One event.  `original` holds the caregiver's dates as last given to the
    editor; a failed update reverts to them.
   */
  function Step(st: EditorState, ev: Event, original: seq<int>): EditorState {
    match ev
    case DayClick(None, _) => st
    case DayClick(Some(day), shift) => Click(st, day, shift)
    case ClearDates => EditorState({}, None)
    case UpdateSucceeded(serverDates) => EditorState(DaySet(serverDates), st.anchor)
    case UpdateFailed => EditorState(DaySet(original), st.anchor)
  }

  /** The dates an event sends to the server, if it sends any. */
  function Sent(st: EditorState, ev: Event, original: seq<int>): (r: Option<set<int>>)
    ensures r.Some? <==> (ev.DayClick? && ev.day.Some?) || ev.ClearDates?
    ensures r.Some? ==> r.value == Step(st, ev, original).dates
  {
    match ev
    case DayClick(Some(day), shift) => Some(Click(st, day, shift).dates)
    case ClearDates => Some({})
    case _ => None
  }

  /** A plain click changes exactly the clicked day and moves the anchor there. */
  lemma PlainClickTogglesOneDay(st: EditorState, day: int, original: seq<int>)
    ensures var r := Step(st, DayClick(Some(day), false), original);
      && (day in r.dates <==> day !in st.dates)
      && (forall d :: d != day ==> (d in r.dates <==> d in st.dates))
      && r.anchor == Some(day)
  {
  }

  /** Two plain clicks on the same day restore the selection. */
  lemma PlainClickTwiceRestores(st: EditorState, day: int, original: seq<int>)
    ensures Step(Step(st, DayClick(Some(day), false), original), DayClick(Some(day), false), original).dates == st.dates
  {
    var once := Toggle(st.dates, day);
    assert Toggle(once, day) == st.dates;
  }

  /**
    A shift-click after an earlier click adds the whole inclusive range
    between the two days, never removes a day, and contains both ends.
   */
  lemma ShiftClickAddsRange(st: EditorState, day: int, original: seq<int>)
    requires st.anchor.Some?
    ensures var r := Step(st, DayClick(Some(day), true), original);
      && st.dates <= r.dates
      && st.anchor.value in r.dates && day in r.dates
      && (forall d :: d in r.dates <==> d in st.dates || Min(st.anchor.value, day) <= d <= Max(st.anchor.value, day))
  {
  }

  /** A shift-click with no anchor is a plain click. */
  lemma ShiftClickWithoutAnchor(st: EditorState, day: int, original: seq<int>)
    requires st.anchor.None?
    ensures Step(st, DayClick(Some(day), true), original) == Step(st, DayClick(Some(day), false), original)
  {
  }

  /** Clearing empties the selection and forgets the anchor. */
  lemma ClearResets(st: EditorState, original: seq<int>)
    ensures Step(st, ClearDates, original) == EditorState({}, None)
    ensures Sent(st, ClearDates, original) == Some({})
  {
  }

  /** A failed update brings back the caregiver's original dates and keeps the anchor. */
  lemma FailedUpdateReverts(st: EditorState, original: seq<int>)
    ensures Step(st, UpdateFailed, original) == EditorState(Initial(original).dates, st.anchor)
    ensures forall d :: d in Step(st, UpdateFailed, original).dates <==> d in original
  {
  }
}

=== FILE: mask_name.dfy ===
/**
  `maskName` (src/lib/utils.ts): hides the middle of the first word of a
  name, keeping whatever follows it (a suffix such as " 님").
 */
module MaskName {
  import opened Text

  /** `'*'.repeat(n)`. */
  function Stars(n: nat): (r: string)
    ensures |r| == n
    ensures forall k :: 0 <= k < n ==> r[k] == '*'
  {
    if n == 0 then "" else "*" + Stars(n - 1)
  }

  /**
    The first space-separated word of the trimmed name: the longest prefix
    of the trimmed text that holds no space.
   */
  function FirstToken(fullName: string): (tok: string)
    ensures StartsWith(Trim(fullName), tok)
    ensures ' ' !in tok
    ensures |tok| == |Trim(fullName)| || Trim(fullName)[|tok|] == ' '
  {
    var t := Trim(fullName);
    var parts := Split(t, ' ');
    assert |parts| > 1 ==> t == parts[0] + [' '] + Join(parts[1..], ' ');
    parts[0]
  }

  /**
    The masked first word: same length, same first character, '*' in every
    other position except the last, which is kept when the word has three
    or more characters.
   */
  function MaskToken(tok: string): (r: string)
    requires |tok| >= 2
    ensures |r| == |tok|
    ensures r[0] == tok[0]
    ensures forall k :: 1 <= k < |tok| - 1 ==> r[k] == '*'
    ensures r[|tok| - 1] == if |tok| == 2 then '*' else tok[|tok| - 1]
  {
    if |tok| == 2 then [tok[0]] + "*"
    else [tok[0]] + Stars(|tok| - 2) + [tok[|tok| - 1]]
  }

  /**
    The suffix `maskName` re-attaches: a space and the remaining words joined
    by spaces, or nothing for a one-word name.  It is exactly the trimmed
    text after the first word.
   */
  function Suffix(t: string): (r: string)
    ensures r == t[|Split(t, ' ')[0]|..]
  {
    var parts := Split(t, ' ');
    if |parts| > 1 then
      assert t == parts[0] + " " + Join(parts[1..], ' ');
      " " + Join(parts[1..], ' ')
    else ""
  }

  /**
    `maskName`.  The empty name gives the empty string; a name whose first
    word has at most one character is returned unchanged; otherwise the
    first word is masked and the rest of the trimmed name follows it.
   */
  function MaskName(fullName: string): (r: string)
    ensures fullName == "" ==> r == ""
    ensures fullName != "" && |FirstToken(fullName)| <= 1 ==> r == fullName
    ensures fullName != "" && |FirstToken(fullName)| >= 2 ==>
      r == MaskToken(FirstToken(fullName)) + Trim(fullName)[|FirstToken(fullName)|..]
  {
    if |fullName| == 0 then ""
    else
      var name := Split(Trim(fullName), ' ')[0];
      var suffix := Suffix(Trim(fullName));
      if |name| <= 1 then fullName
      else if |name| == 2 then [name[0]] + "*" + suffix
      else [name[0]] + Stars(|name| - 2) + [name[|name| - 1]] + suffix
  }

  /** Masking never changes the length of the trimmed name when it masks at all. */
  lemma MaskKeepsTrimmedLength(fullName: string)
    requires fullName != "" && |FirstToken(fullName)| >= 2
    ensures |MaskName(fullName)| == |Trim(fullName)|
  {
  }

  lemma ExampleTrim()
    ensures Trim("김서아 님") == "김서아 님"
  {
    var s := "김서아 님";
    assert s[0] == '김' && s[|s| - 1] == '님';
    assert !IsWhitespace('김') && !IsWhitespace('님');
  }

  lemma ExampleFirstToken()
    ensures FirstToken("김서아 님") == "김서아"
  {
    ExampleTrim();
    var s := "김서아 님";
    var tok := FirstToken(s);
    assert s[0] != ' ' && s[1] != ' ' && s[2] != ' ' && s[3] == ' ';
    assert StartsWith(s, tok) && ' ' !in tok;
    assert |tok| == 3;
    assert tok == s[..3];
  }

  /** "김서아 님" becomes "김*아 님". */
  lemma MaskNameExample()
    ensures MaskName("김서아 님") == "김*아 님"
  {
    ExampleTrim();
    ExampleFirstToken();
    var s := "김서아 님";
    assert s[3..] == " 님";
    var m := MaskToken("김서아");
    assert m[0] == '김' && m[1] == '*' && m[2] == '아' && |m| == 3;
    assert m == "김*아";
  }
}

=== FILE: recommendation.dfy ===
/**
  The caregiver recommendation flow (src/ai/flows/caregiver-recommendation.ts):
  filter the roster by three eligibility rules, shuffle the eligible
  caregivers with Fisher–Yates, keep the first three, project each with a
  random suitability score, and sort by that score, highest first.

  `Math.random()` is an oracle: a stream of draws in [0, 1) for the shuffle
  and another for the scores.  "Today" is a parameter.  A roster that could
  not be fetched is `None`.
 */
module Recommendation {
  import opened Wrappers
  import opened Text
  import opened Calendar
  import opened Sorting
  import opened CaregiverTypes
  import opened Sequences

  // ---------------------------------------------------------------------------
  // Randomness
  // ---------------------------------------------------------------------------

  /** Every draw is a possible value of `Math.random()`. */
  predicate UnitDraws(draws: seq<real>) {
    forall k :: 0 <= k < |draws| ==> 0.0 <= draws[k] < 1.0
  }

  /** `Math.floor(r * (i + 1))`: an index in `[0, i]`. */
  function PickIndex(r: real, i: nat): (j: nat)
    requires 0.0 <= r < 1.0
    ensures j <= i
  {
    var x := r * (i + 1) as real;
    ProductBelow(r, (i + 1) as real);
    x.Floor
  }

  /** A draw below 1 scales a positive bound to something below it. */
  lemma ProductBelow(r: real, n: real)
    requires 0.0 <= r < 1.0 && n > 0.0
    ensures r * n < n
  {
    assert (1.0 - r) * n > 0.0;
  }

  /** `50 + Math.floor(r * 36)`: a suitability score. */
  function Score(r: real): (s: int)
    requires 0.0 <= r < 1.0
    ensures 50 <= s <= 85
  {
    var x := r * 36.0;
    assert x < 36.0;
    50 + x.Floor
  }

  // ---------------------------------------------------------------------------
  // Fisher–Yates shuffle
  // ---------------------------------------------------------------------------

  function Swap<T>(a: seq<T>, i: nat, j: nat): (r: seq<T>)
    requires i < |a| && j < |a|
    ensures |r| == |a|
    ensures multiset(r) == multiset(a)
  {
    a[i := a[j]][j := a[i]]
  }

  /**
    The loop of `shuffleArray` from index `i` down to 1; the iteration for
    index `i` consumes draw number `|a| - 1 - i`.
   */
  function ShuffleFrom<T>(a: seq<T>, i: int, draws: seq<real>): (r: seq<T>)
    requires i < |a|
    requires UnitDraws(draws) && |a| - 1 <= |draws|
    ensures |r| == |a|
    ensures multiset(r) == multiset(a)
    decreases i
  {
    if i <= 0 then a
    else
      var j := PickIndex(draws[|a| - 1 - i], i);
      ShuffleFrom(Swap(a, i, j), i - 1, draws)
  }

  /** `shuffleArray`: whatever the draws, the result is a permutation of the input. */
  function Shuffle<T>(a: seq<T>, draws: seq<real>): (r: seq<T>)
    requires UnitDraws(draws) && |a| - 1 <= |draws|
    ensures |r| == |a|
    ensures multiset(r) == multiset(a)
  {
    ShuffleFrom(a, |a| - 1, draws)
  }

  // ---------------------------------------------------------------------------
  // Eligibility
  // ---------------------------------------------------------------------------

  /** Rule 1: a female patient is matched only with female caregivers. */
  predicate GenderOk(input: RecommendationInput, c: Caregiver) {
    !(input.patientGender == Some(Female) && c.gender != Female)
  }

  /**
    The days `eachDayOfInterval` enumerates for the request: none without a
    `from`; from `from` to `to` (or to `from` when `to` is absent) otherwise.
    An interval with an unparseable end enumerates no day.
   */
  function RequestedDays(input: RecommendationInput): seq<int> {
    match input.requestedDateRange
    case None => []
    case Some(range) =>
      match range.from
      case None => []
      case Some(from) =>
        var to := range.to.GetOr(from);
        if from.IsoDay? && to.IsoDay? then EachDayOfInterval(from.day, to.day) else []
  }

  /** `days.some(d => dates.includes(d))`, scanning `days` from the front. */
  predicate SomeIn(days: seq<int>, dates: seq<int>) {
    |days| > 0 && (days[0] in dates || SomeIn(days[1..], dates))
  }

  /** The scan finds a match exactly when the two sequences share a day. */
  lemma {:induction false} SomeInIffShared(days: seq<int>, dates: seq<int>)
    ensures SomeIn(days, dates) <==> exists d :: d in days && d in dates
  {
    if |days| > 0 {
      SomeInIffShared(days[1..], dates);
      assert forall d :: d in days <==> d == days[0] || d in days[1..] by {
        assert days == [days[0]] + days[1..];
      }
    }
  }

  /** Rule 2: no requested day is one of the caregiver's unavailable dates. */
  predicate DatesOk(input: RecommendationInput, c: Caregiver) {
    !SomeIn(RequestedDays(input), c.unavailableDates)
  }

  /** Rule 3: the caregiver's status is '가능'. */
  predicate StatusOk(c: Caregiver) {
    c.status == Available
  }

  predicate Eligible(input: RecommendationInput, c: Caregiver) {
    GenderOk(input, c) && DatesOk(input, c) && StatusOk(c)
  }

  /** `allCaregivers.filter(...)`: exactly the eligible caregivers, each as often as in the roster. */
  function FilterEligible(input: RecommendationInput, roster: seq<Caregiver>): (r: seq<Caregiver>)
    ensures |r| <= |roster|
    ensures forall c :: c in r <==> c in roster && Eligible(input, c)
    ensures forall c :: multiset(r)[c] == if Eligible(input, c) then multiset(roster)[c] else 0
  {
    if |roster| == 0 then []
    else
      var rest := FilterEligible(input, roster[1..]);
      assert roster == [roster[0]] + roster[1..];
      if Eligible(input, roster[0]) then [roster[0]] + rest else rest
  }

  // ---------------------------------------------------------------------------
  // Projection
  // ---------------------------------------------------------------------------

  /**
    `certifications.split(',').map(c => c.trim())`, or `[]` for an absent or
    empty text.  Empty pieces are kept.
   */
  function Certifications(text: Option<string>): (r: seq<string>)
    ensures text.None? || text == Some("") ==> r == []
    ensures text.Some? && text.value != "" ==> |r| == |Split(text.value, ',')|
    ensures forall k :: 0 <= k < |r| ==> ',' !in r[k]
    ensures forall k :: 0 <= k < |r| && |r[k]| > 0 ==> !IsWhitespace(r[k][0]) && !IsWhitespace(r[k][|r[k]| - 1])
  {
    if text.None? || text.value == "" then [] else TrimEach(Split(text.value, ','))
  }

  /** Whole years from the birth date to today; 0 without a birth date. */
  function Age(c: Caregiver, today: CalDate): int {
    match c.birthDate
    case None => 0
    case Some(b) => DifferenceInYears(today, b)
  }

  /** The projection of one selected caregiver with its score. */
  function Project(c: Caregiver, today: CalDate, score: int): (r: Recommendation)
    ensures r.name == if c.name == "" then "이름없음" else c.name
    ensures r.experience == if c.experience.None? || c.experience == Some("") then "경력 정보 없음" else c.experience.value
    ensures r.gender == GenderText(c.gender)
    ensures r.age == Age(c, today) && r.certifications == Certifications(c.certifications)
    ensures r.suitabilityScore == score && r.phone == c.phone && r.photoUrl == c.photoUrl
  {
    Recommendation(
      name := if c.name == "" then "이름없음" else c.name,
      age := Age(c, today),
      gender := GenderText(c.gender),
      experience := if c.experience.None? || c.experience == Some("") then "경력 정보 없음" else c.experience.value,
      certifications := Certifications(c.certifications),
      suitabilityScore := score,
      phone := c.phone,
      photoUrl := c.photoUrl)
  }

  /** `p` is the projection of `c`, whatever score it drew. */
  predicate IsProjectionOf(p: Recommendation, c: Caregiver, today: CalDate) {
    p == Project(c, today, p.suitabilityScore)
  }

  /** `p` is the projection of one of the caregivers `cs`. */
  predicate ProjectsOneOf(p: Recommendation, cs: seq<Caregiver>, today: CalDate) {
    exists c :: c in cs && IsProjectionOf(p, c, today)
  }

  lemma ProjectsOneOfSubset(p: Recommendation, xs: seq<Caregiver>, ys: seq<Caregiver>, today: CalDate)
    requires ProjectsOneOf(p, xs, today)
    requires forall c :: c in xs ==> c in ys
    ensures ProjectsOneOf(p, ys, today)
  {
  }

  /** Projects the selected caregivers in order, the `k`-th with score draw `k`. */
  function Scored(selected: seq<Caregiver>, today: CalDate, draws: seq<real>): (r: seq<Recommendation>)
    requires UnitDraws(draws) && |selected| <= |draws|
    ensures |r| == |selected|
    ensures forall k :: 0 <= k < |r| ==> IsProjectionOf(r[k], selected[k], today)
    ensures forall k :: 0 <= k < |r| ==> 50 <= r[k].suitabilityScore <= 85
  {
    seq(|selected|, k requires 0 <= k < |selected| => Project(selected[k], today, Score(draws[k])))
  }

  function ScoreOf(r: Recommendation): int {
    r.suitabilityScore
  }

  // ---------------------------------------------------------------------------
  // The whole flow
  // ---------------------------------------------------------------------------

  /** The caregivers the flow projects: the first three of the shuffled eligible ones. */
  function Selected(input: RecommendationInput, roster: seq<Caregiver>, shuffleDraws: seq<real>): (r: seq<Caregiver>)
    requires UnitDraws(shuffleDraws) && |roster| <= |shuffleDraws|
    ensures |r| == Min(3, |FilterEligible(input, roster)|)
    ensures multiset(r) <= multiset(FilterEligible(input, roster))
    ensures forall c :: c in r ==> c in roster && Eligible(input, c)
  {
    var eligible := FilterEligible(input, roster);
    var shuffled := Shuffle(eligible, shuffleDraws);
    var n := Min(3, |shuffled|);
    PrefixMultiset(shuffled, n);
    var r := shuffled[..n];
    assert forall c :: c in r ==> c in eligible by {
      forall c | c in r ensures c in eligible {
        assert c in multiset(r);
      }
    }
    r
  }

  /** Scores the selected caregivers and sorts them by score, highest first. */
  function Ranked(selected: seq<Caregiver>, today: CalDate, scoreDraws: seq<real>): (r: seq<Recommendation>)
    requires UnitDraws(scoreDraws) && |selected| <= |scoreDraws|
    ensures |r| == |selected|
    ensures SortedDesc(r, ScoreOf)
    ensures forall p :: p in r ==> 50 <= p.suitabilityScore <= 85
    ensures forall p :: p in r ==> ProjectsOneOf(p, selected, today)
    ensures multiset(r) == multiset(Scored(selected, today, scoreDraws))
  {
    var scored := Scored(selected, today, scoreDraws);
    var sorted := SortDesc(scored, ScoreOf);
    SortedScoredFacts(selected, today, scored, sorted);
    sorted
  }

  /** Every entry of a reordering of the scored list projects a selected caregiver with a score in range. */
  lemma SortedScoredFacts(selected: seq<Caregiver>, today: CalDate, scored: seq<Recommendation>, sorted: seq<Recommendation>)
    requires |scored| == |selected|
    requires forall k :: 0 <= k < |scored| ==> IsProjectionOf(scored[k], selected[k], today)
    requires forall k :: 0 <= k < |scored| ==> 50 <= scored[k].suitabilityScore <= 85
    requires multiset(sorted) == multiset(scored)
    ensures forall p :: p in sorted ==> 50 <= p.suitabilityScore <= 85
    ensures forall p :: p in sorted ==> ProjectsOneOf(p, selected, today)
  {
    forall p | p in sorted
      ensures 50 <= p.suitabilityScore <= 85 && ProjectsOneOf(p, selected, today)
    {
      assert p in multiset(scored);
      var m :| 0 <= m < |scored| && scored[m] == p;
      assert selected[m] in selected;
    }
  }

  /**
    The cards are the scored cards of some pick from the eligible caregivers,
    rearranged: no caregiver is picked more often than it is eligible.
   */
  ghost predicate ScoredPickOf(cards: seq<Recommendation>, eligible: seq<Caregiver>, today: CalDate, scoreDraws: seq<real>)
    requires UnitDraws(scoreDraws)
  {
    exists picked: seq<Caregiver> ::
      |picked| <= |scoreDraws| && multiset(picked) <= multiset(eligible) &&
      multiset(cards) == multiset(Scored(picked, today, scoreDraws))
  }

  /**
    `caregiverRecommendation`.  A failed roster fetch (the one error the flow
    can meet) and an empty eligible set both give `{recommendations: []}`.
   */
  function Recommend(
    input: RecommendationInput,
    roster: Option<seq<Caregiver>>,
    today: CalDate,
    shuffleDraws: seq<real>,
    scoreDraws: seq<real>): (out: RecommendationOutput)
    requires UnitDraws(shuffleDraws) && UnitDraws(scoreDraws)
    requires roster.Some? ==> |roster.value| <= |shuffleDraws|
    requires 3 <= |scoreDraws|
    ensures roster.None? ==> out.recommendations == []
    ensures roster.Some? ==> |out.recommendations| == Min(3, |FilterEligible(input, roster.value)|)
    ensures |out.recommendations| <= 3
    ensures forall p :: p in out.recommendations ==> 50 <= p.suitabilityScore <= 85
    ensures SortedDesc(out.recommendations, ScoreOf)
    ensures forall p :: p in out.recommendations ==>
      ProjectsOneOf(p, FilterEligible(input, roster.value), today)
    ensures roster.Some? ==> ScoredPickOf(out.recommendations, FilterEligible(input, roster.value), today, scoreDraws)
  {
    match roster
    case None => RecommendationOutput([])
    case Some(all) =>
      var eligible := FilterEligible(input, all);
      if |eligible| == 0 then
        assert multiset(Scored([], today, scoreDraws)) == multiset([]);
        RecommendationOutput([])
      else
        var selected := Selected(input, all, shuffleDraws);
        var ranked := Ranked(selected, today, scoreDraws);
        assert forall p :: p in ranked ==> ProjectsOneOf(p, eligible, today) by {
          forall p | p in ranked ensures ProjectsOneOf(p, eligible, today) {
            ProjectsOneOfSubset(p, selected, eligible, today);
          }
        }
        assert multiset(ranked) == multiset(Scored(selected, today, scoreDraws));
        RecommendationOutput(ranked)
  }

  // ---------------------------------------------------------------------------
  // Properties of the flow
  // ---------------------------------------------------------------------------

  /** For a female patient every recommendation is a female caregiver. */
  lemma FemalePatientOnlyFemale(
    input: RecommendationInput, roster: Option<seq<Caregiver>>, today: CalDate,
    shuffleDraws: seq<real>, scoreDraws: seq<real>)
    requires UnitDraws(shuffleDraws) && UnitDraws(scoreDraws)
    requires roster.Some? ==> |roster.value| <= |shuffleDraws|
    requires 3 <= |scoreDraws|
    requires input.patientGender == Some(Female)
    ensures forall p :: p in Recommend(input, roster, today, shuffleDraws, scoreDraws).recommendations ==>
      p.gender == "여성"
  {
    var out := Recommend(input, roster, today, shuffleDraws, scoreDraws).recommendations;
    forall p | p in out ensures p.gender == "여성" {
      var c :| c in FilterEligible(input, roster.value) && IsProjectionOf(p, c, today);
      assert c.gender == Female;
    }
  }

  /** A male or unspecified patient puts no constraint on the caregiver's gender. */
  lemma GenderRuleOnlyForFemalePatients(input: RecommendationInput, c: Caregiver)
    requires input.patientGender != Some(Female)
    ensures GenderOk(input, c)
  {
  }

  /**
    With a well-formed `from` (and `to`, which defaults to `from`), a caregiver
    passes the date rule exactly when none of the days between the two,
    inclusive, is among its unavailable dates.
   */
  lemma DatesOkIffRangeFree(input: RecommendationInput, c: Caregiver, from: int, to: int)
    requires input.requestedDateRange.Some?
    requires input.requestedDateRange.value.from == Some(IsoDay(from))
    requires input.requestedDateRange.value.to in {None, Some(IsoDay(to))}
    requires input.requestedDateRange.value.to.None? ==> to == from
    ensures DatesOk(input, c) <==>
      forall d :: Min(from, to) <= d <= Max(from, to) ==> d !in c.unavailableDates
  {
    var days := RequestedDays(input);
    assert days == EachDayOfInterval(from, to);
    SomeInIffShared(days, c.unavailableDates);
  }

  /** Without a `from` date no caregiver is excluded for its dates. */
  lemma NoFromNoDateCheck(input: RecommendationInput, c: Caregiver)
    requires input.requestedDateRange.None? || input.requestedDateRange.value.from.None?
    ensures DatesOk(input, c)
  {
  }

  /** A caregiver unavailable on any requested day, or not '가능', is never eligible. */
  lemma ExcludedCaregivers(input: RecommendationInput, c: Caregiver, d: int)
    requires (d in RequestedDays(input) && d in c.unavailableDates) || c.status != Available
    ensures !Eligible(input, c)
  {
    SomeInIffShared(RequestedDays(input), c.unavailableDates);
  }

  /** Without a birth date the age is 0; exactly `n` years after it, the age is `n`. */
  lemma ProjectedAge(c: Caregiver, today: CalDate, n: nat)
    ensures c.birthDate.None? ==> Project(c, today, 50).age == 0
    ensures c.birthDate.Some? && today == AddYears(c.birthDate.value, n) ==> Project(c, today, 50).age == n
  {
    if c.birthDate.Some? && today == AddYears(c.birthDate.value, n) {
      AnniversaryDifference(c.birthDate.value, n);
    }
  }

  /**
    The placeholders: a nameless caregiver is shown as '이름없음', one without
    experience as '경력 정보 없음'; the gender is always one of the two enum
    texts, so the '미지정' placeholder never appears.
   */
  lemma ProjectionFallbacks(c: Caregiver, today: CalDate, score: int)
    ensures var p := Project(c, today, score);
      && (p.name == "이름없음" <==> c.name == "" || c.name == "이름없음")
      && (c.experience.Some? && c.experience.value != "" ==> p.experience == c.experience.value)
      && (c.experience.None? ==> p.experience == "경력 정보 없음")
      && p.gender != "미지정"
      && ParseGender(p.gender) == Some(c.gender)
  {
    ParseGenderText(c.gender);
  }

  /** Joining "A", "" and "B" with commas gives "A,,B". */
  lemma JoinExample()
    ensures Join(["A", "", "B"], ',') == "A,,B"
  {
    var parts := ["A", "", "B"];
    assert Join(parts[2..], ',') == "B";
    assert Join(parts[1..], ',') == ",B";
  }

  lemma SplitEmptyPieceExample()
    ensures Split("A,,B", ',') == ["A", "", "B"]
  {
    var parts := ["A", "", "B"];
    JoinExample();
    assert forall k :: 0 <= k < |parts| ==> ',' !in parts[k];
    SplitJoin(parts, ',');
  }

  lemma TrimLetterExamples()
    ensures Trim("A") == "A" && Trim("B") == "B" && Trim("C") == "C" && Trim("") == ""
  {
    assert !IsWhitespace('A') && !IsWhitespace('B') && !IsWhitespace('C');
    assert TrimStart("A") == "A" && TrimEnd("A") == "A";
    assert TrimStart("B") == "B" && TrimEnd("B") == "B";
    assert TrimStart("C") == "C" && TrimEnd("C") == "C";
  }

  /**
    A certification text made of comma-free pieces is parsed into those
    pieces, each trimmed, one entry per piece.
   */
  lemma {:induction false} CertificationsOfJoin(pieces: seq<string>)
    requires |pieces| >= 1
    requires forall k :: 0 <= k < |pieces| ==> ',' !in pieces[k]
    requires Join(pieces, ',') != ""
    ensures Certifications(Some(Join(pieces, ','))) == TrimEach(pieces)
  {
    SplitJoin(pieces, ',');
  }

  /** Empty pieces are kept: "A,,B" is parsed into ["A", "", "B"]. */
  lemma CertificationsKeepEmpty()
    ensures Certifications(Some("A,,B")) == ["A", "", "B"]
  {
    SplitEmptyPieceExample();
    TrimEachLetters();
    CertificationsOfPieces("A,,B", ["A", "", "B"], ["A", "", "B"]);
  }

  /** A non-empty text is parsed into the trimmed pieces it splits into. */
  lemma CertificationsOfPieces(t: string, pieces: seq<string>, trimmed: seq<string>)
    requires t != "" && Split(t, ',') == pieces && TrimEach(pieces) == trimmed
    ensures Certifications(Some(t)) == trimmed
  {
  }

  /** Trimming "A", "" and "B" leaves each of them as it is. */
  lemma TrimEachLetters()
    ensures TrimEach(["A", "", "B"]) == ["A", "", "B"]
  {
    var parts := ["A", "", "B"];
    TrimLetterExamples();
    forall k | 0 <= k < |parts|
      ensures Trim(parts[k]) == parts[k]
    {
      if k == 0 {
        assert parts[k] == "A";
      } else if k == 1 {
        assert parts[k] == "";
      } else {
        assert parts[k] == "B";
      }
    }
    TrimEachUnchanged(parts);
  }

  /** Pieces that trimming does not change are left as they are. */
  lemma TrimEachUnchanged(pieces: seq<string>)
    requires forall k :: 0 <= k < |pieces| ==> Trim(pieces[k]) == pieces[k]
    ensures TrimEach(pieces) == pieces
  {
    var r := TrimEach(pieces);
    assert forall k :: 0 <= k < |pieces| ==> r[k] == pieces[k];
  }
}

=== FILE: recommendation_form.dfy ===
/**
  The caregiver recommendation form (src/components/caregiver-recommendation-form.tsx):
  its schema with the start/end time refinement, the hour options of the two
  time pickers, and the request it builds from valid values.
 */
module RecommendationForm {
  import opened Wrappers
  import opened Text
  import opened Calendar
  import opened CaregiverTypes
  import opened Validation
  import Recommendation

  // ---------------------------------------------------------------- values

  /** The day range picked in the calendar; either end may still be open. */
  datatype PickedRange = PickedRange(from: Option<int>, to: Option<int>)

  /**
    The form's values as the schema receives them.  The birth date is the
    picked day already written as `yyyy-MM-dd`; the gender is whatever the
    select holds (`None` until one is chosen).
   */
  datatype FormValues = FormValues(
    name: string,
    phone: string,
    patientGender: Option<string>,
    patientBirthDate: Option<string>,
    careType: Option<string>,
    scheduleDateRange: Option<PickedRange>,
    scheduleStartTime: Option<string>,
    scheduleEndTime: Option<string>,
    specificNeeds: Option<string>)

  const NameTooShort := "성명은 2자 이상이어야 합니다."
  const PhoneTooShort := "정확한 전화번호를 입력해주세요."
  const GenderRequired := "성별은 필수 항목입니다."
  const EndNotAfterStart := "종료 시간은 시작 시간보다 늦어야 합니다."

  // ---------------------------------------------------------------- schema

  /** The refinement's test: when both times are set, the end must sort after the start. */
  predicate TimesOrdered(start: Option<string>, end: Option<string>) {
    !(Truthy(start) && Truthy(end)) || LexLess(start.value, end.value)
  }

  /** The patient gender check: a missing gender gets the written message. */
  function PatientGenderIssues(g: Option<string>): seq<Issue> {
    GenderIssues("patientGender", g, Says(GenderRequired))
  }

  /** The checks of the three validated fields, in the schema's order. */
  function FieldIssues(v: FormValues): (r: seq<Issue>)
    ensures r == [] <==> |v.name| >= 2 && |v.phone| >= 10 && PatientGenderIssues(v.patientGender) == []
    ensures Flagged(r, "name") <==> |v.name| < 2
    ensures Flagged(r, "phone") <==> |v.phone| < 10
    ensures !Flagged(r, "scheduleEndTime")
    ensures Messages(r, "patientGender") == Messages(PatientGenderIssues(v.patientGender), "patientGender")
  {
    var n := MinLength("name", v.name, 2, NameTooShort);
    var p := MinLength("phone", v.phone, 10, PhoneTooShort);
    var g := PatientGenderIssues(v.patientGender);
    FieldFlags(n, p, g, "name");
    FieldFlags(n, p, g, "phone");
    FieldFlags(n, p, g, "scheduleEndTime");
    FieldFlags(n, p, g, "patientGender");
    MessagesOfAppend(n + p, g, "patientGender");
    n + p + g
  }

  lemma FieldFlags(n: seq<Issue>, p: seq<Issue>, g: seq<Issue>, f: string)
    requires forall i :: i in n ==> i.field == "name"
    requires forall i :: i in p ==> i.field == "phone"
    requires forall i :: i in g ==> i.field == "patientGender"
    ensures Flagged(n + p + g, f) <==> (n != [] && f == "name") || (p != [] && f == "phone") || (g != [] && f == "patientGender")
  {
    FlaggedOfAppend(n, p, f);
    FlaggedOfAppend(n + p, g, f);
    FlaggedUniform(n, "name", f);
    FlaggedUniform(p, "phone", f);
    FlaggedUniform(g, "patientGender", f);
  }

  /**
    The issues of `formSchema`.  The field checks run first; the refinement
    runs after them unless a field failed outright, which only the gender
    enum does (a too-short string still lets the refinement run).
   */
  function FormIssues(v: FormValues): (r: seq<Issue>)
    ensures r == [] <==>
      && |v.name| >= 2
      && |v.phone| >= 10
      && v.patientGender.Some? && ParseGender(v.patientGender.value).Some?
      && TimesOrdered(v.scheduleStartTime, v.scheduleEndTime)
    ensures Messages(r, "scheduleEndTime") ==
      if PatientGenderIssues(v.patientGender) == [] && !TimesOrdered(v.scheduleStartTime, v.scheduleEndTime)
      then [Says(EndNotAfterStart)] else []
    ensures Flagged(r, "name") <==> |v.name| < 2
    ensures Flagged(r, "phone") <==> |v.phone| < 10
  {
    var fieldIssues := FieldIssues(v);
    var refineIssues :=
      if TimesOrdered(v.scheduleStartTime, v.scheduleEndTime) then []
      else [Issue("scheduleEndTime", Says(EndNotAfterStart))];
    MessagesOfAppend(fieldIssues, refineIssues, "scheduleEndTime");
    MessagesMembers(fieldIssues, "scheduleEndTime");
    FlaggedOfAppend(fieldIssues, refineIssues, "name");
    FlaggedOfAppend(fieldIssues, refineIssues, "phone");
    if PatientGenderIssues(v.patientGender) != [] then fieldIssues else fieldIssues + refineIssues
  }

  /**
    A missing or unknown gender hides the time-order error: the refinement
    only runs once every field has a well-typed value.
   */
  lemma GenderFailureHidesTimeError(v: FormValues)
    requires v.patientGender.None?
    requires !TimesOrdered(v.scheduleStartTime, v.scheduleEndTime)
    ensures !Flagged(FormIssues(v), "scheduleEndTime")
    ensures Messages(FormIssues(v), "patientGender") == [Says(GenderRequired)]
  {
  }

  // ---------------------------------------------------------------- hour options

  /** `s.padStart(width, fill)` for a one-character fill. */
  function PadStart(s: string, width: nat, fill: char): (r: string)
    ensures |r| == if |s| >= width then |s| else width
    ensures r[|r| - |s|..] == s
    ensures forall k :: 0 <= k < |r| - |s| ==> r[k] == fill
  {
    if |s| >= width then s else seq(width - |s|, _ => fill) + s
  }

  /** The option label of hour `h`: its two-digit, zero-padded number and ":00". */
  function HourLabel(h: nat): (r: string)
    ensures |r| >= 5
  {
    PadStart(DecimalText(h), 2, '0') + ":00"
  }

  /** Below 100 the label is the two decimal digits of the hour followed by ":00". */
  lemma HourLabelDigits(h: nat)
    requires h < 100
    ensures HourLabel(h) == [Digit(h / 10), Digit(h % 10), ':', '0', '0']
  {
    if h < 10 {
      OneDigitLabel(h);
    } else {
      TwoDigitLabel(h);
    }
    var p := PadStart(DecimalText(h), 2, '0');
    assert p == [Digit(h / 10), Digit(h % 10)];
    assert HourLabel(h) == p + ":00";
    assert ":00" == [':', '0', '0'];
  }

  lemma OneDigitLabel(h: nat)
    requires h < 10
    ensures PadStart(DecimalText(h), 2, '0') == [Digit(h / 10), Digit(h % 10)]
  {
    assert h / 10 == 0 && h % 10 == h;
    assert DecimalText(h) == [Digit(h)];
    assert PadStart([Digit(h)], 2, '0') == PadStart(['0', Digit(h)], 2, '0');
  }

  lemma TwoDigitLabel(h: nat)
    requires 10 <= h < 100
    ensures PadStart(DecimalText(h), 2, '0') == [Digit(h / 10), Digit(h % 10)]
  {
    assert h / 10 < 10;
    assert DecimalText(h / 10) == [Digit(h / 10)];
    assert DecimalText(h) == [Digit(h / 10)] + [Digit(h % 10)];
  }

  /** Labels of hours below 100 sort exactly as the hours do. */
  lemma {:induction false} HourLabelOrder(a: nat, b: nat)
    requires a < 100 && b < 100
    ensures LexLess(HourLabel(a), HourLabel(b)) <==> a < b
  {
    var ta, ua, tb, ub := a / 10, a % 10, b / 10, b % 10;
    HourLabelDigits(a);
    HourLabelDigits(b);
    LabelShapeOrder(Digit(ta), Digit(ua), Digit(tb), Digit(ub));
    DigitOrder(ta, tb);
    DigitOrder(ua, ub);
    TwoDigitOrder(a, b);
  }

  /** Digit characters are ordered as the digits are. */
  lemma DigitOrder(x: nat, y: nat)
    requires x < 10 && y < 10
    ensures Digit(x) < Digit(y) <==> x < y
    ensures Digit(x) == Digit(y) <==> x == y
  {
  }

  /** Two labels of the same shape compare by their first, then their second character. */
  lemma LabelShapeOrder(x1: char, x2: char, y1: char, y2: char)
    ensures LexLess([x1, x2, ':', '0', '0'], [y1, y2, ':', '0', '0']) <==> x1 < y1 || (x1 == y1 && x2 < y2)
  {
    var la: string, lb: string := [x1, x2, ':', '0', '0'], [y1, y2, ':', '0', '0'];
    if x1 == y1 && x2 == y2 {
      LexLessIrreflexive(la);
    } else if x1 == y1 {
      assert la[1..][0] == x2 && lb[1..][0] == y2;
      assert LexLess(la, lb) == LexLess(la[1..], lb[1..]);
    }
  }

  /** Hours below 100 compare as their (tens, units) pairs do. */
  lemma TwoDigitOrder(a: nat, b: nat)
    requires a < 100 && b < 100
    ensures a < b <==> a / 10 < b / 10 || (a / 10 == b / 10 && a % 10 < b % 10)
  {
    assert a == 10 * (a / 10) + a % 10;
    assert b == 10 * (b / 10) + b % 10;
  }

  /** `startTimeOptions`: the labels of hours 0 to 23. */
  function StartTimeOptions(): (r: seq<string>)
    ensures |r| == 24
    ensures forall k :: 0 <= k < 24 ==> r[k] == HourLabel(k)
  {
    seq(24, i requires 0 <= i => HourLabel(i))
  }

  /**
    `endTimeOptions`: the labels of hours 0 to 23 without the first, then
    "24:00" pushed at the end, which is the label of hour 24.
   */
  function EndTimeOptions(): (r: seq<string>)
    ensures |r| == 24
    ensures forall k :: 0 <= k < 24 ==> r[k] == HourLabel(k + 1)
  {
    var labels := seq(24, i requires 0 <= i => if i == 24 then "24:00" else HourLabel(i));
    var r := labels[1..] + ["24:00"];
    assert forall k :: 0 <= k < 23 ==> r[k] == labels[k + 1];
    HourLabelDigits(24);
    r
  }

  /** Both option lists are strictly increasing in string order. */
  lemma OptionsIncrease(j: nat, k: nat)
    requires j < k < 24
    ensures LexLess(StartTimeOptions()[j], StartTimeOptions()[k])
    ensures LexLess(EndTimeOptions()[j], EndTimeOptions()[k])
  {
    HourLabelOrder(j, k);
    HourLabelOrder(j + 1, k + 1);
  }

  /**
    Picking the start at position `j` and the end at position `k` passes the
    time refinement exactly when `k >= j`: the end list is the start list
    shifted by one hour.
   */
  lemma OptionPairOrdered(j: nat, k: nat)
    requires j < 24 && k < 24
    ensures TimesOrdered(Some(StartTimeOptions()[j]), Some(EndTimeOptions()[k])) <==> j <= k
  {
    var starts, ends := StartTimeOptions(), EndTimeOptions();
    assert starts[j] == HourLabel(j);
    assert ends[k] == HourLabel(k + 1);
    LabelPairOrdered(j, k + 1);
  }

  /** Two hour labels pass the time refinement exactly when the hours increase. */
  lemma LabelPairOrdered(a: nat, b: nat)
    requires a < 100 && b < 100
    ensures TimesOrdered(Some(HourLabel(a)), Some(HourLabel(b))) <==> a < b
  {
    HourLabelOrder(a, b);
  }

  // ---------------------------------------------------------------- request

  /** `requestedTime`: both times as a range, or the one given with "부터"/"까지", or nothing. */
  function RequestedTime(start: Option<string>, end: Option<string>): (r: Option<string>)
    ensures r.None? <==> !Truthy(start) && !Truthy(end)
    ensures Truthy(start) && Truthy(end) ==> r == Some(start.value + " ~ " + end.value)
    ensures Truthy(start) && !Truthy(end) ==> r == Some(start.value + "부터")
    ensures !Truthy(start) && Truthy(end) ==> r == Some(end.value + "까지")
  {
    if Truthy(start) && Truthy(end) then Some(start.value + " ~ " + end.value)
    else if Truthy(start) then Some(start.value + "부터")
    else if Truthy(end) then Some(end.value + "까지")
    else None
  }

  /** A time that is either unset or a five-character label such as "09:00". */
  predicate LabelOrUnset(t: Option<string>) {
    t.None? || |t.value| == 5
  }

  /**
    For picker labels the description loses nothing: two choices that give
    the same `requestedTime` set the same times.
   */
  lemma RequestedTimeInjective(s1: Option<string>, e1: Option<string>, s2: Option<string>, e2: Option<string>)
    requires LabelOrUnset(s1) && LabelOrUnset(e1) && LabelOrUnset(s2) && LabelOrUnset(e2)
    requires RequestedTime(s1, e1) == RequestedTime(s2, e2)
    ensures Truthy(s1) == Truthy(s2) && Truthy(e1) == Truthy(e2)
    ensures Truthy(s1) ==> s1.value == s2.value
    ensures Truthy(e1) ==> e1.value == e2.value
  {
    var r := RequestedTime(s1, e1);
    if r.Some? {
      var t := r.value;
      // the three shapes have lengths 13, 7 and 7; the last two differ in their last character
      if Truthy(s1) && Truthy(e1) {
        assert t[..5] == s1.value && t[8..] == e1.value;
        assert |t| == 13;
      } else if Truthy(s1) {
        assert t[..5] == s1.value && t[6] == '터' && |t| == 7;
      } else {
        assert t[..5] == e1.value && t[6] == '지' && |t| == 7;
      }
      if Truthy(s2) && Truthy(e2) {
        assert t[..5] == s2.value && t[8..] == e2.value;
      } else if Truthy(s2) {
        assert t[..5] == s2.value && t[6] == '터' && |t| == 7;
      } else {
        assert t[..5] == e2.value && t[6] == '지' && |t| == 7;
      }
    }
  }

  /** `requestedDateRange`: absent without a start day; the end falls back to the start. */
  function RequestedDateRange(picked: Option<PickedRange>): (r: Option<DateRange>)
    ensures r.None? <==> picked.None? || picked.value.from.None?
    ensures r.Some? ==>
      && r.value.from == Some(IsoDay(picked.value.from.value))
      && r.value.to == Some(IsoDay(picked.value.to.GetOr(picked.value.from.value)))
  {
    match picked
    case Some(PickedRange(Some(from), to)) => Some(DateRange(Some(IsoDay(from)), Some(IsoDay(to.GetOr(from)))))
    case _ => None
  }

  /** The request `onSubmit` sends: who asks, and the recommendation input. */
  datatype Request = Request(userName: string, userPhone: string, input: RecommendationInput)

  /**
    `fullRequest`.  The recommendation only ever compares the gender with
    '여성', so a value outside the enum is passed on as no gender.
   */
  function FullRequest(v: FormValues): (r: Request)
    ensures r.userName == v.name && r.userPhone == v.phone
    ensures r.input.careType == OrElse(v.careType, "유형 무관") && r.input.careType != ""
    ensures r.input.specificNeeds == OrElse(v.specificNeeds, "특별한 요구사항 없음") && r.input.specificNeeds != ""
    ensures r.input.requestedDateRange == RequestedDateRange(v.scheduleDateRange)
    ensures r.input.requestedTime == RequestedTime(v.scheduleStartTime, v.scheduleEndTime)
    ensures r.input.patientGender.Some? <==> v.patientGender.Some? && ParseGender(v.patientGender.value).Some?
    ensures r.input.patientGender.Some? ==> r.input.patientGender == ParseGender(v.patientGender.value)
    ensures r.input.patientBirthDate == v.patientBirthDate
  {
    var gender := match v.patientGender case None => None case Some(s) => ParseGender(s);
    Request(v.name, v.phone, RecommendationInput(
      gender,
      v.patientBirthDate,
      OrElse(v.careType, "유형 무관"),
      RequestedDateRange(v.scheduleDateRange),
      RequestedTime(v.scheduleStartTime, v.scheduleEndTime),
      OrElse(v.specificNeeds, "특별한 요구사항 없음")))
  }

  /**
    The days the recommendation checks against each caregiver's unavailable
    dates are exactly the picked days: from the start to the end, or the
    start alone when no end is picked, and none without a start.
   */
  lemma CheckedDaysArePickedDays(v: FormValues)
    ensures var days := Recommendation.RequestedDays(FullRequest(v).input);
      match v.scheduleDateRange
      case Some(PickedRange(Some(from), to)) =>
        forall d :: d in days <==> Min(from, to.GetOr(from)) <= d <= Max(from, to.GetOr(from))
      case _ => days == []
    ensures v.scheduleDateRange.Some? && v.scheduleDateRange.value.from.Some? && v.scheduleDateRange.value.to.None? ==>
      Recommendation.RequestedDays(FullRequest(v).input) == [v.scheduleDateRange.value.from.value]
  {
  }

  /** The person asking, remembered for the inquiry from a caregiver card. */
  datatype Inquirer = Inquirer(name: string, phone: string)

  /** What the page shows after a submission: the cards, and who may send an inquiry. */
  datatype Shown = Shown(recommendations: Option<seq<CaregiverTypes.Recommendation>>, inquirer: Option<Inquirer>)

  /**
    The state after `onSubmit`.  `result` is `None` when the server call
    threw: nothing is shown and a toast reports the error.
   */
  function AfterSubmit(v: FormValues, result: Option<RecommendationOutput>): (s: Shown)
    ensures s.recommendations == (if result.Some? then Some(result.value.recommendations) else None)
    ensures s.inquirer.Some? <==> result.Some? && |result.value.recommendations| > 0
    ensures s.inquirer.Some? ==> s.inquirer.value == Inquirer(v.name, v.phone)
  {
    match result
    case None => Shown(None, None)
    case Some(out) =>
      Shown(Some(out.recommendations), if |out.recommendations| > 0 then Some(Inquirer(v.name, v.phone)) else None)
  }
}

=== FILE: route_guard.dfy ===
/**
  The request middleware (src/middleware.ts): the admin pages need a
  session cookie, and a signed-in user asking for the login page is sent to
  the admin console.  Only the value's presence matters; the cookie's
  content is never checked.
 */
module RouteGuard {
  import opened Wrappers
  import opened Text

  datatype Decision = RedirectToLogin | RedirectToAdmin | PassThrough

  /** The decision of `middleware` for a path and the `session` cookie, if any. */
  function Middleware(path: string, session: Option<string>): (d: Decision)
    ensures d == RedirectToLogin <==> StartsWith(path, "/admin") && session.None?
    ensures d == RedirectToAdmin <==> StartsWith(path, "/login") && session.Some?
  {
    if StartsWith(path, "/admin") && session.None? then RedirectToLogin
    else if StartsWith(path, "/login") && session.Some? then RedirectToAdmin
    else PassThrough
  }

  /** The paths the `matcher` sends through the middleware: `/admin`, `/admin/...`, `/login`. */
  predicate Matched(path: string) {
    path == "/admin" || StartsWith(path, "/admin/") || path == "/login"
  }

  /** A request as served: unmatched paths never reach the middleware. */
  function Guard(path: string, session: Option<string>): (d: Decision)
    ensures !Matched(path) ==> d == PassThrough
    ensures d == RedirectToLogin <==> Matched(path) && StartsWith(path, "/admin") && session.None?
    ensures d == RedirectToAdmin <==> path == "/login" && session.Some?
  {
    assert StartsWith(path, "/admin") ==> !StartsWith(path, "/login") by {
      if StartsWith(path, "/admin") && StartsWith(path, "/login") {
        assert false;
      }
    }
    assert StartsWith(path, "/admin/") ==> StartsWith(path, "/admin") by {
      if StartsWith(path, "/admin/") {
        assert path[..6] == path[..7][..6];
      }
    }
    if Matched(path) then Middleware(path, session) else PassThrough
  }

  /** Any cookie value, even an empty one, opens the admin pages. */
  lemma CookieValueIrrelevant(path: string, v: string, w: string)
    ensures Guard(path, Some(v)) == Guard(path, Some(w))
    ensures Guard(path, Some(v)) != RedirectToLogin
  {
  }

  /** Without a session, every admin page sends the visitor to the login page. */
  lemma AdminNeedsSession(path: string)
    requires path == "/admin" || StartsWith(path, "/admin/")
    ensures Guard(path, None) == RedirectToLogin
  {
  }

  /**
    The middleware tests a bare prefix, so on its own it would also guard
    `/administrator`; the matcher keeps such a path away from it.
   */
  lemma PrefixOnlyGuardedThroughMatcher()
    ensures Middleware("/administrator", None) == RedirectToLogin
    ensures Guard("/administrator", None) == PassThrough
    ensures Middleware("/login/help", Some("x")) == RedirectToAdmin
    ensures Guard("/login/help", Some("x")) == PassThrough
  {
    assert !StartsWith("/administrator", "/admin/") by {
      assert "/administrator"[6] != '/';
    }
    assert !StartsWith("/login/help", "/admin") by {
      assert "/login/help"[1] != 'a';
    }
  }

  /**
    Redirects never loop: whatever path and session led to a redirect, the
    redirect's target passes through with the same session.
   */
  lemma RedirectTargetsSettle(path: string, session: Option<string>)
    ensures Guard("/login", None) == PassThrough
    ensures Guard("/admin", Some("s")) == PassThrough
    ensures session.None? ==> Guard(if Guard("/admin", session) == RedirectToLogin then "/login" else "/admin", session) == PassThrough
    ensures Guard(path, session) == RedirectToLogin ==> Guard("/login", session) == PassThrough
    ensures Guard(path, session) == RedirectToAdmin ==> Guard("/admin", session) == PassThrough
  {
    assert !StartsWith("/login", "/admin") by { assert "/login"[1] != 'a'; }
    assert !StartsWith("/admin", "/login") by { assert "/admin"[1] != 'l'; }
  }
}

=== FILE: sequences.dfy ===
/**
  Order-preserving selection from a sequence, shared by the list filters of
  the admin console and the server actions.
 */
module Sequences {
  /** `a` keeps some of the elements of `b`, in the order `b` has them. */
  predicate IsSubsequence<T(==)>(a: seq<T>, b: seq<T>) {
    |a| == 0 || (|b| > 0 && (if a[0] == b[0] then IsSubsequence(a[1..], b[1..]) else IsSubsequence(a, b[1..])))
  }

  lemma {:induction false} SubsequenceOfTail<T>(a: seq<T>, b: seq<T>)
    requires |b| > 0 && IsSubsequence(a, b[1..])
    ensures IsSubsequence(a, b)
    decreases |b|, |a|
  {
    if |a| > 0 && a[0] == b[0] {
      // `a` matched inside `b[1..]`; its tail then matches inside `b[1..]` too.
      SubsequenceDropHead(a, b[1..]);
    }
  }

  lemma {:induction false} SubsequenceDropHead<T>(a: seq<T>, b: seq<T>)
    requires |a| > 0 && IsSubsequence(a, b)
    ensures IsSubsequence(a[1..], b)
    decreases |b|, |a|
  {
    if a[0] == b[0] {
      if |a[1..]| > 0 {
        SubsequenceOfTail(a[1..], b);
      }
    } else {
      SubsequenceDropHead(a, b[1..]);
      if |a[1..]| > 0 {
        SubsequenceOfTail(a[1..], b);
      }
    }
  }

  /** A prefix keeps no element more often than the whole sequence does. */
  lemma PrefixMultiset<T>(s: seq<T>, n: nat)
    requires n <= |s|
    ensures multiset(s[..n]) <= multiset(s)
  {
    assert s == s[..n] + s[n..];
  }
}

=== FILE: settings.dfy ===
/**
  `getAdminEmails` (src/lib/settings.ts): the administrators' addresses
  read from five numbered settings.  The environment is a map from
  setting names to values.
 */
module Settings {
  import opened Wrappers
  import opened Text

  /** The number of numbered settings consulted. */
  const SlotCount := 5

  /** The name of setting `i`: `CARECONNECT_ADMIN_EMAIL_` followed by the number. */
  function EmailKey(i: nat): string {
    "CARECONNECT_ADMIN_EMAIL_" + DecimalText(i)
  }

  /** The value of a setting, if it is defined. */
  function Lookup(env: map<string, string>, key: string): Option<string> {
    if key in env then Some(env[key]) else None
  }

  /** A value is kept when it is defined, non-empty and contains '@'. */
  predicate Usable(v: Option<string>) {
    v.Some? && v.value != "" && '@' in v.value
  }

  /** The values of settings 1 to `n`, in order. */
  function Slots(env: map<string, string>, n: nat): (r: seq<Option<string>>)
    ensures |r| == n
    ensures forall k :: 0 <= k < n ==> r[k] == Lookup(env, EmailKey(k + 1))
  {
    if n == 0 then [] else Slots(env, n - 1) + [Lookup(env, EmailKey(n))]
  }

  /** The usable values among `values`, in their order. */
  function Kept(values: seq<Option<string>>): (r: seq<string>)
    ensures |r| <= |values|
    ensures forall k :: 0 <= k < |r| ==> r[k] != "" && '@' in r[k]
    ensures forall e :: e in r <==> Some(e) in values && '@' in e
  {
    if |values| == 0 then []
    else
      var init := Kept(values[..|values| - 1]);
      var last := values[|values| - 1];
      assert values == values[..|values| - 1] + [last];
      if Usable(last) then init + [last.value] else init
  }

  /** Keeping distributes over concatenation, so the kept values come in the order of `values`. */
  lemma {:induction false} KeptOfAppend(a: seq<Option<string>>, b: seq<Option<string>>)
    ensures Kept(a + b) == Kept(a) + Kept(b)
    decreases |b|
  {
    if |b| == 0 {
      assert a + b == a;
    } else {
      var ab := a + b;
      var init := b[..|b| - 1];
      assert ab[..|ab| - 1] == a + init;
      assert ab[|ab| - 1] == b[|b| - 1];
      KeptOfAppend(a, init);
    }
  }

  /** Each usable value is kept as often as it occurs. */
  lemma {:induction false} KeptCounts(values: seq<Option<string>>)
    ensures forall e :: '@' in e ==> multiset(Kept(values))[e] == multiset(values)[Some(e)]
  {
    if |values| > 0 {
      var init := values[..|values| - 1];
      var last := values[|values| - 1];
      KeptCounts(init);
      assert values == init + [last];
      assert multiset(values) == multiset(init) + multiset{last};
      if Usable(last) {
        assert multiset(Kept(values)) == multiset(Kept(init)) + multiset{last.value};
      }
    }
  }

  /** `getAdminEmails`: settings 1 to 5 are read in turn and every usable value is collected. */
  method GetAdminEmails(env: map<string, string>) returns (emails: seq<string>)
    ensures emails == Kept(Slots(env, SlotCount))
    ensures |emails| <= SlotCount
    ensures forall k :: 0 <= k < |emails| ==> '@' in emails[k]
  {
    emails := [];
    var i := 1;
    while i <= SlotCount
      invariant 1 <= i <= SlotCount + 1
      invariant emails == Kept(Slots(env, i - 1))
    {
      var key := EmailKey(i);
      var email := if key in env then Some(env[key]) else None;
      if email.Some? && email.value != "" && '@' in email.value {
        emails := emails + [email.value];
      }
      assert Slots(env, i)[..i - 1] == Slots(env, i - 1);
      i := i + 1;
    }
  }

  /** The five setting names are distinct, so each slot is read from its own setting. */
  lemma KeysDistinct(i: nat, j: nat)
    requires i != j && i < 10 && j < 10
    ensures EmailKey(i) != EmailKey(j)
  {
    var p := "CARECONNECT_ADMIN_EMAIL_";
    assert EmailKey(i)[|p|] == Digit(i);
    assert EmailKey(j)[|p|] == Digit(j);
  }

  /** With no settings defined there are no administrators. */
  lemma NoSettingsNoAdmins(env: map<string, string>)
    requires forall k :: 1 <= k <= SlotCount ==> EmailKey(k) !in env
    ensures Kept(Slots(env, SlotCount)) == []
  {
    var s := Slots(env, SlotCount);
    assert forall k :: 0 <= k < |s| ==> s[k] == None;
    if |Kept(s)| > 0 {
      assert Kept(s)[0] in Kept(s);
    }
  }
}

=== FILE: sorting.dfy ===
/**
  `Array.prototype.sort` with a comparator `(a, b) => key(b) - key(a)`:
  a stable sort into non-increasing key order, written as insertion sort.
 */
module Sorting {

  /** Keys never increase from left to right. */
  predicate SortedDesc<T>(s: seq<T>, key: T -> int) {
    forall i, j :: 0 <= i < j < |s| ==> key(s[i]) >= key(s[j])
  }

  /** Inserts `x` before the first element whose key does not exceed its own. */
  function InsertDesc<T>(x: T, s: seq<T>, key: T -> int): (r: seq<T>)
    requires SortedDesc(s, key)
    ensures |r| == |s| + 1
    ensures SortedDesc(r, key)
    ensures multiset(r) == multiset(s) + multiset{x}
  {
    if |s| == 0 then [x]
    else if key(x) >= key(s[0]) then [x] + s
    else
      var rest := InsertDesc(x, s[1..], key);
      assert s == [s[0]] + s[1..];
      KeysBounded(rest, s[1..] + [x], key, key(s[0]));
      ConsSorted(s[0], rest, key);
      [s[0]] + rest
  }

  /** A rearrangement of elements whose keys are at most `bound` has the same bound. */
  lemma KeysBounded<T>(a: seq<T>, b: seq<T>, key: T -> int, bound: int)
    requires multiset(a) == multiset(b)
    requires forall k :: 0 <= k < |b| ==> key(b[k]) <= bound
    ensures forall k :: 0 <= k < |a| ==> key(a[k]) <= bound
  {
    forall k | 0 <= k < |a|
      ensures key(a[k]) <= bound
    {
      assert a[k] in multiset(b);
      var m :| 0 <= m < |b| && b[m] == a[k];
    }
  }

  /** A sorted list stays sorted under a head whose key is at least every key in it. */
  lemma ConsSorted<T>(h: T, t: seq<T>, key: T -> int)
    requires SortedDesc(t, key)
    requires forall k :: 0 <= k < |t| ==> key(t[k]) <= key(h)
    ensures SortedDesc([h] + t, key)
  {
  }

  /** Sorts `s` into non-increasing key order, keeping every element exactly once. */
  function SortDesc<T>(s: seq<T>, key: T -> int): (r: seq<T>)
    ensures |r| == |s|
    ensures SortedDesc(r, key)
    ensures multiset(r) == multiset(s)
  {
    if |s| == 0 then []
    else
      assert s == [s[0]] + s[1..];
      InsertDesc(s[0], SortDesc(s[1..], key), key)
  }

  /** A list that is already in order is left exactly as it is. */
  lemma {:induction false} SortDescOfSorted<T>(s: seq<T>, key: T -> int)
    requires SortedDesc(s, key)
    ensures SortDesc(s, key) == s
  {
    if |s| > 0 {
      SortDescOfSorted(s[1..], key);
      assert SortDesc(s[1..], key) == s[1..];
    }
  }
}

=== FILE: support_application.dfy ===
/**
  The caregiver application handled by `submitSupportApplication`
  (src/app/support/actions.ts): the schema its form data must meet and the
  state the action returns.  The e-mail it sends on success is an outcome
  passed in.
 */
module SupportApplication {
  import opened Wrappers
  import opened Text
  import opened CaregiverTypes
  import opened Validation

  /** The submitted form data; `None` is a field the form did not send (`formData.get` gives null). */
  datatype SupportForm = SupportForm(
    name: Option<string>,
    contact: Option<string>,
    region: seq<string>,
    birthDate: Option<string>,
    gender: Option<string>,
    photoDataUri: Option<string>,
    certifications: Option<string>,
    experience: Option<string>,
    selfIntroduction: Option<string>)

  const NameMissing := "성명을 입력해주세요."
  const ContactNotDigits := "(-) 없이 숫자만 입력해주세요."
  const ContactTooShort := "정확한 연락처를 입력해주세요."
  const RegionMissing := "하나 이상의 지역을 선택해주세요."
  const BirthDateMissing := "생년월일을 입력해주세요."
  const ExperienceMissing := "경력을 선택해주세요."
  const ServerError := "서버 오류로 인해 지원서 제출에 실패했습니다. 관리자에게 문의해주세요."

  /** An optional text field: absent is fine for the schema, but `null` is not. */
  function OptionalText(field: string, v: Option<string>): (r: seq<Issue>)
    ensures r == [] <==> v.Some?
  {
    if v.None? then [Issue(field, WrongType)] else []
  }

  /** The contact: both the digits-only pattern and the length are checked, each with its own message. */
  function ContactIssues(v: Option<string>): (r: seq<Issue>)
    ensures v.None? ==> r == [Issue("contact", WrongType)]
    ensures v.Some? ==> (Issue("contact", Says(ContactNotDigits)) in r <==> v.value == "" || !AllDigits(v.value))
    ensures v.Some? ==> (Issue("contact", Says(ContactTooShort)) in r <==> |v.value| < 10)
    ensures forall i :: i in r ==> i.field == "contact"
  {
    match v
    case None => [Issue("contact", WrongType)]
    case Some(s) =>
      (if |s| > 0 && AllDigits(s) then [] else [Issue("contact", Says(ContactNotDigits))])
      + MinLength("contact", s, 10, ContactTooShort)
  }

  /** `value.some(item => item)`: at least one selected region is a non-empty string. */
  function RegionIssues(region: seq<string>): (r: seq<Issue>)
    ensures r == [] <==> exists k :: 0 <= k < |region| && region[k] != ""
  {
    if exists k :: 0 <= k < |region| && region[k] != "" then [] else [Issue("region", Says(RegionMissing))]
  }

  /** The issues of `SupportFormSchema`, field by field in the schema's order. */
  function SupportIssues(f: SupportForm): seq<Issue> {
    RequiredText("name", f.name, NameMissing)
    + ContactIssues(f.contact)
    + RegionIssues(f.region)
    + RequiredText("birthDate", f.birthDate, BirthDateMissing)
    + GenderIssues("gender", f.gender, WrongType)
    + OptionalText("photoDataUri", f.photoDataUri)
    + OptionalText("certifications", f.certifications)
    + RequiredText("experience", f.experience, ExperienceMissing)
    + OptionalText("selfIntroduction", f.selfIntroduction)
  }

  /** An acceptable application, stated field by field. */
  predicate Acceptable(f: SupportForm) {
    && f.name.Some? && f.name.value != ""
    && f.contact.Some? && |f.contact.value| >= 10 && AllDigits(f.contact.value)
    && (exists k :: 0 <= k < |f.region| && f.region[k] != "")
    && f.birthDate.Some? && f.birthDate.value != ""
    && f.gender.Some? && (f.gender.value == "남성" || f.gender.value == "여성")
    && f.photoDataUri.Some? && f.certifications.Some? && f.selfIntroduction.Some?
    && f.experience.Some? && f.experience.value != ""
  }

  /** The schema accepts exactly the acceptable applications. */
  lemma SchemaAcceptsExactly(f: SupportForm)
    ensures SupportIssues(f) == [] <==> Acceptable(f)
  {
    var c := ContactIssues(f.contact);
    if f.contact.Some? && (|f.contact.value| < 10 || !AllDigits(f.contact.value)) {
      assert c != [];
    }
  }

  /** How sending the application e-mail ended. */
  datatype EmailOutcome = Delivered(message: string) | NotDelivered(message: string) | Threw

  /** What the action returns to the form. */
  datatype ActionState = ActionState(message: string, errors: map<string, seq<Message>>)

  /** `submitSupportApplication`. */
  function Submit(f: SupportForm, email: EmailOutcome): (r: ActionState)
    ensures SupportIssues(f) != [] ==>
      r.message == CheckInput && r.errors == FieldErrors(SupportIssues(f)) && |r.errors| > 0
    ensures SupportIssues(f) == [] ==> r.errors == map[]
    ensures SupportIssues(f) == [] ==>
      r.message == match email
        case Delivered(m) => m
        case NotDelivered(m) => m
        case Threw => ServerError
  {
    var issues := SupportIssues(f);
    if issues != [] then
      assert Flagged(issues, issues[0].field);
      ActionState(CheckInput, FieldErrors(issues))
    else
      match email
      case Delivered(m) => ActionState(m, map[])
      case NotDelivered(m) => ActionState(m, map[])
      case Threw => ActionState(ServerError, map[])
  }

  /** A rejected application never reaches the e-mail step: its outcome cannot change the answer. */
  lemma RejectedIgnoresEmail(f: SupportForm, e1: EmailOutcome, e2: EmailOutcome)
    requires !Acceptable(f)
    ensures Submit(f, e1) == Submit(f, e2)
    ensures Submit(f, e1).message == CheckInput
  {
    SchemaAcceptsExactly(f);
  }

  /** A contact with a dash is reported as not digits-only, and as too short when it is. */
  lemma DashedShortContact()
    ensures Messages(ContactIssues(Some("010-1234")), "contact") == [Says(ContactNotDigits), Says(ContactTooShort)]
  {
    assert !IsAsciiDigit("010-1234"[3]);
  }
}

=== FILE: text.dfy ===
/**
  The handful of JavaScript string operations the core relies on:
  `trim`, `split` on one character, `join`, `includes`, `startsWith`,
  `toLowerCase`, and the `<` order on strings.  Strings are `seq<char>`;
  one `char` stands for one UTF-16 code unit.
 */
module Text {

  /** The ECMAScript WhiteSpace and LineTerminator code points that `trim` removes. */
  predicate IsWhitespace(c: char) {
    || c == '\t' || c == '\n' || c == '\U{000B}' || c == '\U{000C}' || c == '\r'
    || c == ' ' || c == '\U{00A0}' || c == '\U{1680}'
    || ('\U{2000}' <= c <= '\U{200A}')
    || c == '\U{2028}' || c == '\U{2029}' || c == '\U{202F}' || c == '\U{205F}'
    || c == '\U{3000}' || c == '\U{FEFF}'
  }

  predicate IsAsciiDigit(c: char) {
    '0' <= c <= '9'
  }

  predicate AllDigits(s: string) {
    forall k :: 0 <= k < |s| ==> IsAsciiDigit(s[k])
  }

  /** Removes leading whitespace: the result is the suffix of `s` after a whitespace-only prefix. */
  function TrimStart(s: string): (r: string)
    ensures |r| <= |s| && r == s[|s| - |r|..]
    ensures forall k :: 0 <= k < |s| - |r| ==> IsWhitespace(s[k])
    ensures |r| > 0 ==> !IsWhitespace(r[0])
  {
    if |s| > 0 && IsWhitespace(s[0]) then TrimStart(s[1..]) else s
  }

  /** Removes trailing whitespace: the result is the prefix of `s` before a whitespace-only suffix. */
  function TrimEnd(s: string): (r: string)
    ensures |r| <= |s| && r == s[..|r|]
    ensures forall k :: |r| <= k < |s| ==> IsWhitespace(s[k])
    ensures |r| > 0 ==> !IsWhitespace(r[|r| - 1])
  {
    if |s| > 0 && IsWhitespace(s[|s| - 1]) then TrimEnd(s[..|s| - 1]) else s
  }

  /** `String.prototype.trim`. */
  function Trim(s: string): (r: string)
    ensures |r| <= |s|
    ensures |r| > 0 ==> !IsWhitespace(r[0]) && !IsWhitespace(r[|r| - 1])
    ensures |s| > 0 && !IsWhitespace(s[0]) && !IsWhitespace(s[|s| - 1]) ==> r == s
    ensures forall c :: c in r ==> c in s
    ensures exists i :: StripsWhitespace(s, r, i)
  {
    var t := TrimStart(s);
    var i := |s| - |t|;
    var r := TrimEnd(t);
    assert r == s[i..i + |r|];
    assert StripsWhitespace(s, r, i);
    r
  }

  /** `r` is the piece of `s` starting at `i`, and everything of `s` around it is whitespace. */
  predicate StripsWhitespace(s: string, r: string, i: int) {
    && 0 <= i <= |s| - |r|
    && r == s[i..i + |r|]
    && (forall k :: 0 <= k < i ==> IsWhitespace(s[k]))
    && (forall k :: i + |r| <= k < |s| ==> IsWhitespace(s[k]))
  }

  /** A string with no whitespace at either end is its own trim. */
  lemma {:induction false} TrimIdempotent(s: string)
    ensures Trim(Trim(s)) == Trim(s)
  {
    var t := Trim(s);
    assert TrimStart(t) == t;
    if |t| > 0 {
      assert !IsWhitespace(t[|t| - 1]);
    }
    assert TrimEnd(t) == t;
  }

  /** `parts.join(sep)`: the parts with one `sep` between neighbours. */
  function Join(parts: seq<string>, sep: char): string {
    if |parts| == 0 then ""
    else if |parts| == 1 then parts[0]
    else parts[0] + [sep] + Join(parts[1..], sep)
  }

  /**
    `s.split(sep)` for a one-character separator: the maximal pieces between
    occurrences of `sep`; the empty string splits into one empty piece.
   */
  function Split(s: string, sep: char): (parts: seq<string>)
    ensures |parts| >= 1
    ensures forall k :: 0 <= k < |parts| ==> sep !in parts[k]
    ensures Join(parts, sep) == s
  {
    if |s| == 0 then [""]
    else
      var rest := Split(s[1..], sep);
      if s[0] == sep then
        [""] + rest
      else
        assert [s[0]] + rest[0] + Join(rest, sep)[|rest[0]|..] == s by {
          if |rest| > 1 {
            assert Join(rest, sep) == rest[0] + [sep] + Join(rest[1..], sep);
          }
        }
        [[s[0]] + rest[0]] + rest[1..]
  }

  /** Splitting undoes joining when no part contains the separator. */
  lemma {:induction false} SplitJoin(parts: seq<string>, sep: char)
    requires |parts| >= 1
    requires forall k :: 0 <= k < |parts| ==> sep !in parts[k]
    ensures Split(Join(parts, sep), sep) == parts
    decreases |parts|, |parts[0]|
  {
    var p := parts[0];
    if |p| == 0 {
      if |parts| == 1 {
      } else {
        var tail := Join(parts[1..], sep);
        assert Join(parts, sep) == [sep] + tail;
        SplitJoin(parts[1..], sep);
        assert ([sep] + tail)[1..] == tail;
      }
    } else {
      var shorter := [p[1..]] + parts[1..];
      assert shorter[1..] == parts[1..];
      assert forall k :: 0 <= k < |shorter| ==> sep !in shorter[k] by {
        forall k | 0 <= k < |shorter| ensures sep !in shorter[k] {
          if k == 0 {
            assert forall c :: c in p[1..] ==> c in p;
          } else {
            assert shorter[k] == parts[k];
          }
        }
      }
      SplitJoin(shorter, sep);
      var s := Join(parts, sep);
      assert s == [p[0]] + Join(shorter, sep) by {
        if |parts| == 1 {
          assert p == [p[0]] + p[1..];
        } else {
          assert p == [p[0]] + p[1..];
          assert Join(shorter, sep) == p[1..] + [sep] + Join(parts[1..], sep);
        }
      }
      assert s[1..] == Join(shorter, sep);
      assert s[0] == p[0] && p[0] != sep;
      assert [p[0]] + p[1..] == p;
    }
  }

  /** `t` occurs in `s` starting at index `i`. */
  predicate OccursAt(s: string, t: string, i: int) {
    0 <= i <= |s| - |t| && s[i..i + |t|] == t
  }

  /** `s.includes(t)`: `t` occurs in `s` as a contiguous substring. */
  predicate Contains(s: string, t: string) {
    exists i | 0 <= i <= |s| :: OccursAt(s, t, i)
  }

  /** `s.startsWith(p)`. */
  predicate StartsWith(s: string, p: string) {
    |p| <= |s| && s[..|p|] == p
  }

  function LowerChar(c: char): char {
    if 'A' <= c <= 'Z' then (c as int + 32) as char else c
  }

  /** `toLowerCase`, for the ASCII letters (Hangul has no case). */
  function ToLower(s: string): (r: string)
    ensures |r| == |s|
    ensures forall k :: 0 <= k < |s| ==> r[k] == LowerChar(s[k])
  {
    if |s| == 0 then "" else [LowerChar(s[0])] + ToLower(s[1..])
  }

  /** JavaScript's `<` on strings: code-unit lexicographic order. */
  predicate LexLess(a: string, b: string) {
    if |a| == 0 then |b| > 0
    else if |b| == 0 then false
    else if a[0] != b[0] then a[0] < b[0]
    else LexLess(a[1..], b[1..])
  }

  /** Lexicographic order is a strict order: never `a < a`. */
  lemma {:induction false} LexLessIrreflexive(a: string)
    ensures !LexLess(a, a)
  {
    if |a| > 0 {
      LexLessIrreflexive(a[1..]);
    }
  }

  /** Lexicographic order is transitive. */
  lemma {:induction false} LexLessTransitive(a: string, b: string, c: string)
    requires LexLess(a, b) && LexLess(b, c)
    ensures LexLess(a, c)
  {
    if |a| > 0 && |b| > 0 && |c| > 0 && a[0] == b[0] && b[0] == c[0] {
      LexLessTransitive(a[1..], b[1..], c[1..]);
    }
  }

  /** Lexicographic order is total on distinct strings. */
  lemma {:induction false} LexLessTotal(a: string, b: string)
    requires a != b
    ensures LexLess(a, b) || LexLess(b, a)
  {
    if |a| > 0 && |b| > 0 && a[0] == b[0] {
      assert a == [a[0]] + a[1..] && b == [b[0]] + b[1..];
      LexLessTotal(a[1..], b[1..]);
    }
  }

  /** `pieces.map(c => c.trim())`. */
  function TrimEach(pieces: seq<string>): (r: seq<string>)
    ensures |r| == |pieces|
    ensures forall k :: 0 <= k < |r| ==> r[k] == Trim(pieces[k])
  {
    if |pieces| == 0 then [] else [Trim(pieces[0])] + TrimEach(pieces[1..])
  }

  /** The decimal digit `n` as a character. */
  function Digit(n: nat): (c: char)
    requires n < 10
    ensures IsAsciiDigit(c)
  {
    (48 + n) as char
  }

  /** The value of a decimal digit character. */
  function DigitValue(c: char): (n: nat)
    requires IsAsciiDigit(c)
    ensures n < 10 && Digit(n) == c
  {
    c as int - 48
  }

  /** `n.toString()` for a natural number. */
  function DecimalText(n: nat): (r: string)
    ensures |r| >= 1 && AllDigits(r)
    ensures n < 10 ==> r == [Digit(n)]
  {
    if n < 10 then [Digit(n)] else DecimalText(n / 10) + [Digit(n % 10)]
  }

  /** The number a string of decimal digits denotes (0 for the empty string). */
  function DigitsValue(s: string): nat
    requires AllDigits(s)
  {
    if |s| == 0 then 0 else 10 * DigitsValue(s[..|s| - 1]) + DigitValue(s[|s| - 1])
  }

  /** Reading back the decimal text of a number gives the number. */
  lemma {:induction false} DigitsValueOfDecimalText(n: nat)
    ensures DigitsValue(DecimalText(n)) == n
  {
    if n >= 10 {
      var t := DecimalText(n);
      assert t[..|t| - 1] == DecimalText(n / 10);
      DigitsValueOfDecimalText(n / 10);
    }
  }
}

=== FILE: validation.dfy ===
/**
  The part of schema validation the forms and server actions share: the
  issues a failed parse reports and their grouping by field.  Messages a
  schema spells out are kept verbatim; the library's own default texts are
  represented by the kind of failure they describe.
 */
module Validation {
  import opened Wrappers
  import opened CaregiverTypes

  datatype Message =
    | Says(text: string)   // a message written in the schema
    | WrongType            // the default "Expected …, received …" (including `null`)
    | NotInEnum            // the default "Invalid enum value …"

  /** One failed check, reported against the top-level field it belongs to. */
  datatype Issue = Issue(field: string, message: Message)

  /** The messages reported for one field, in the order the checks ran. */
  function Messages(issues: seq<Issue>, field: string): (r: seq<Message>)
    ensures |r| <= |issues|
  {
    if |issues| == 0 then []
    else
      var rest := Messages(issues[1..], field);
      if issues[0].field == field then [issues[0].message] + rest else rest
  }

  /** The messages of a field are exactly those of the issues that name it. */
  lemma {:induction false} MessagesMembers(issues: seq<Issue>, field: string)
    ensures forall m :: m in Messages(issues, field) <==> Issue(field, m) in issues
    ensures Messages(issues, field) == [] <==> !Flagged(issues, field)
  {
    if |issues| > 0 {
      MessagesMembers(issues[1..], field);
      assert issues == [issues[0]] + issues[1..];
      if Flagged(issues, field) {
        var i :| i in issues && i.field == field;
        assert Issue(field, i.message) == i;
      }
    }
  }

  /** Some check on this field failed. */
  predicate Flagged(issues: seq<Issue>, field: string) {
    exists i | i in issues :: i.field == field
  }

  /** The fields that have at least one issue. */
  function FlaggedFields(issues: seq<Issue>): (r: set<string>)
    ensures forall f :: f in r <==> Flagged(issues, f)
  {
    if |issues| == 0 then {}
    else
      var rest := FlaggedFields(issues[1..]);
      assert issues == [issues[0]] + issues[1..];
      {issues[0].field} + rest
  }

  /**
    `error.flatten().fieldErrors`: every flagged field mapped to its
    messages; fields without issues have no entry.
   */
  function FieldErrors(issues: seq<Issue>): (r: map<string, seq<Message>>)
    ensures forall f :: f in r <==> Flagged(issues, f)
    ensures forall f :: f in r ==> r[f] == Messages(issues, f) && |r[f]| > 0
  {
    var fields := FlaggedFields(issues);
    forall f | f in fields
      ensures |Messages(issues, f)| > 0
    {
      MessagesMembers(issues, f);
    }
    map f | f in fields :: Messages(issues, f)
  }

  /** A `min(n, message)` check on a string. */
  function MinLength(field: string, s: string, n: nat, message: string): (r: seq<Issue>)
    ensures r == [] <==> |s| >= n
    ensures r != [] ==> r == [Issue(field, Says(message))]
    ensures forall i :: i in r ==> i.field == field
  {
    if |s| < n then [Issue(field, Says(message))] else []
  }

  /** The answer of a server action whose schema rejects its input. */
  const CheckInput := "입력 내용을 다시 확인해주세요."

  /**
    `z.string().min(1, message)` on a form value: `None` (a `null` from the
    form data) is the wrong type, the empty string gets `message`.
   */
  function RequiredText(field: string, v: Option<string>, message: string): (r: seq<Issue>)
    ensures r == [] <==> v.Some? && v.value != ""
    ensures Messages(r, field) == (if v.None? then [WrongType] else if v.value == "" then [Says(message)] else [])
    ensures forall i :: i in r ==> i.field == field
  {
    match v
    case None => [Issue(field, WrongType)]
    case Some(s) => MinLength(field, s, 1, message)
  }

  /**
    `z.enum(['남성', '여성'], { required_error })` on `field`: a missing value
    reports `missing` (the written message for `undefined`, the wrong type for
    `null`), any other text is not in the enum.
   */
  function GenderIssues(field: string, v: Option<string>, missing: Message): (r: seq<Issue>)
    ensures r == [] <==> v.Some? && ParseGender(v.value).Some?
    ensures forall i :: i in r ==> i.field == field
    ensures v.None? ==> Messages(r, field) == [missing]
    ensures v.Some? && ParseGender(v.value).None? ==> Messages(r, field) == [NotInEnum]
  {
    match v
    case None => [Issue(field, missing)]
    case Some(s) => if ParseGender(s).Some? then [] else [Issue(field, NotInEnum)]
  }

  /** JavaScript truthiness of an optional string: present and not empty. */
  predicate Truthy(o: Option<string>) {
    o.Some? && o.value != ""
  }

  /** `value || fallback` for an optional string. */
  function OrElse(o: Option<string>, fallback: string): (r: string)
    ensures Truthy(o) ==> r == o.value
    ensures !Truthy(o) ==> r == fallback
    ensures fallback != "" ==> r != ""
  {
    if Truthy(o) then o.value else fallback
  }

  /** The messages of a concatenation are those of its parts, in order. */
  lemma {:induction false} MessagesOfAppend(a: seq<Issue>, b: seq<Issue>, field: string)
    ensures Messages(a + b, field) == Messages(a, field) + Messages(b, field)
  {
    if |a| == 0 {
      assert a + b == b;
    } else {
      var ab := a + b;
      assert ab[0] == a[0];
      assert ab[1..] == a[1..] + b;
      MessagesOfAppend(a[1..], b, field);
      var head := if a[0].field == field then [a[0].message] else [];
      assert Messages(ab, field) == head + Messages(a[1..] + b, field);
      assert Messages(a, field) == head + Messages(a[1..], field);
      AppendAssociative(head, Messages(a[1..], field), Messages(b, field));
    }
  }

  lemma AppendAssociative<T>(x: seq<T>, y: seq<T>, z: seq<T>)
    ensures x + (y + z) == (x + y) + z
  {
  }

  /** A field is flagged in a concatenation when it is flagged in either part. */
  lemma FlaggedOfAppend(a: seq<Issue>, b: seq<Issue>, field: string)
    ensures Flagged(a + b, field) <==> Flagged(a, field) || Flagged(b, field)
  {
    MessagesOfAppend(a, b, field);
  }

  /** Issues that all name one field flag that field alone, and only when there are any. */
  lemma FlaggedUniform(issues: seq<Issue>, field: string, f: string)
    requires forall i :: i in issues ==> i.field == field
    ensures Flagged(issues, f) <==> issues != [] && f == field
  {
    if issues != [] {
      assert issues[0] in issues;
    }
  }
}

=== FILE: wrappers.dfy ===
/** Optional values: the model's stand-in for JavaScript's `undefined`/`null`. */
module Wrappers {

  datatype Option<+T> = None | Some(value: T) {

    /** Returns the wrapped value, or `default` when there is none. */
    function GetOr(default: T): T {
      match this
      case Some(v) => v
      case None => default
    }
  }
}
